=== FILE: README.md ===
# Linear system solver: a verified model

The repository solves systems of linear equations typed as text. The Python
front end, `linear_equation_solver.py`, works in four steps:

1. It splits the text into lines (`parse_linear_equations`).
2. It reads each line into a map from variable name to coefficient. The
   empty name is the constant. (`parse_linear_equation` and its inner
   `parse_side`.)
3. It lays the equations out as an augmented matrix over the sorted variable
   list (`equations_to_matrix`).
4. It flattens that matrix into a row-major `double` buffer, hands it to a
   native Gauss–Jordan solver through ctypes, and maps the status code the
   solver returns (0 none, 1 unique, 2 infinite) to a result or an error
   (`LinearEquationSolver.solve`, `MainApp._result_string`).

There are three native solvers:

- `LinSysSolver.c`: single-threaded, `double`.
- `Libc.c`: `double`; one thread or a row partition over up to 64 threads,
  and a clean-up of the right-hand-side column.
- `LinSysSolverC.c`: `float`; always partitioned, no zero-factor skip, and a
  classifier that counts the rank.

`data_generator.py` writes test input: one equation `w = 0` per word of the
endless stream `a, …, z, aa, ab, …`, with the lines sorted.

The model works on immutable values. A C buffer is the sequence of its rows,
and `Layout` relates the two forms. Entries are exact reals compared with
`EPSILON = 1e-9`. Every Python exception is a `Failure` of a `Result`.

Modules:

- `Wrappers`: `Option` and `Result`.
- `Text`: Python's `split`, `join`, `replace`, `count`, `strip()`
  emptiness and `sorted` on strings.
- `Layout`: flattening, de-flattening and `at`.
- `EquationParser`, `SystemAssembler`, `SolverFrontEnd`: the Python front
  end.
- `Matrix`: the C building blocks the three solvers share, and one
  Gauss–Jordan iteration `PivotStep`.
- `Partition`: `eliminate_multi_thread`.
- `LinSysSolver`, `LibcSolver`, `LinSysSolverC`: one module per solver.
- `DataGenerator`.

Three behaviours of the code that are easy to assume otherwise, modelled as
the code has them:

- `parse_linear_equations` raises only on the empty string. Whitespace-only
  text gives an empty list (`EquationParser.BlankInputGivesNoEquations`).
- `equations_to_matrix` does not reject an empty list of equations.
- The pivot search takes the first row whose entry is not zero. It does not
  look for the entry of largest magnitude.

## Model

| member | source | states |
|---|---|---|
| `Layout.Deflatten` | linear_equation_solver.py:67-72 | every slice holds between 1 and `sizeX` entries, and there are no slices exactly when the data is empty |
| `Layout.FlattenLength` | linear_equation_solver.py:34-39 | flattening `rows` rows of width `w` gives `rows * w` entries, the size of the ctypes buffer |
| `Layout.FlattenAt` | LinSysSolverLib/LinSysSolver.c:14-17 | in the flattened buffer, `at(w, r, c)` lies inside the buffer and holds `m[r][c]` |
| `Layout.AtInBounds` | LinSysSolverLib/LinSysSolver.c:14-17 | in-range coordinates give an offset in `[0, rows * cols)` |
| `Layout.AtInjective` | LinSysSolverLib/LinSysSolver.c:14-17 | distinct in-range coordinates give distinct offsets |
| `Layout.DeflattenFlatten` | linear_equation_solver.py:67-72 | `_deflaten_matrix` undoes `_flatten_matrix` for rows of one width `w >= 1` |
| `Layout.FlattenDeflatten` | linear_equation_solver.py:34-39 | `_flatten_matrix` undoes `_deflaten_matrix` for every buffer |
| `Layout.DeflattenShape` | linear_equation_solver.py:67-72 | a buffer of `rows * w` entries comes back as `rows` rows of width `w` |
| `Text.Count` | linear_equation_solver.py:77 | the count is at most the length, and 0 exactly when the character is absent |
| `Text.CountAppend` | linear_equation_solver.py:77 | counting distributes over concatenation |
| `Text.Split` | linear_equation_solver.py:121 | `split` gives one more fragment than separators, no fragment holds the separator, and joining with the separator gives the text back |
| `Text.SplitJoin` | linear_equation_solver.py:79 | splitting a join of separator-free fragments gives the fragments back |
| `Text.SplitPrefix` | linear_equation_solver.py:121 | a separator-free prefix and a separator split off as the first fragment |
| `Text.SplitNoSep` | linear_equation_solver.py:84 | text without the separator is a single fragment |
| `Text.RemoveCharAppend` | linear_equation_solver.py:75 | deleting a character distributes over concatenation |
| `Text.RemoveCharGone` | linear_equation_solver.py:75 | after `replace(" ", "")` no space remains |
| `Text.ReplaceAbsent` | linear_equation_solver.py:82 | `replace` of a pattern whose first character does not occur changes nothing |
| `Text.RemoveCharSubset` | linear_equation_solver.py:75 | deleting a character adds no other character |
| `Text.RemoveCharCount` | linear_equation_solver.py:75 | deleting a character keeps the number of every other character |
| `Text.PrefixedEverywhere` | linear_equation_solver.py:82 | after `replace('-', '+-')` every minus sign directly follows a plus sign, and none stands first |
| `Text.SplitChars` | linear_equation_solver.py:121 | every character of a fragment occurs in the text |
| `Text.SplitFollowers` | linear_equation_solver.py:84 | a character that only ever follows the separator can stand only at the start of a fragment |
| `Text.LessTotal` | linear_equation_solver.py:129 | any two distinct strings are ordered one way or the other |
| `Text.LessTransitive` | linear_equation_solver.py:129 | string order is transitive |
| `Text.SortSet` | linear_equation_solver.py:129 | `sorted` of a set lists exactly its elements, once each, in strictly increasing order |
| `Text.StrictlySortedUnique` | linear_equation_solver.py:129 | two strictly increasing lists with the same elements are equal |
| `Text.Insert` | data_generator.py:19 | inserting into a sorted list keeps it sorted and adds exactly one copy |
| `Text.Sort` | data_generator.py:19 | `sorted` of a list gives a sorted permutation of it |
| `EquationParser.MatchBodyGreedy` | linear_equation_solver.py:87-92 | the match splits the term into the two groups; it takes the longest numeric group of all accepted splits; there is no match exactly when no split is accepted |
| `EquationParser.MatchTermShaped` | linear_equation_solver.py:87-95 | the groups of a match are in the languages of `[+-]?[\d]*\.?[\d]*` and `[\w]*` |
| `EquationParser.MatchTermGreedy` | linear_equation_solver.py:87-92 | `pattern.match` is the greedy match of the whole term, or of the term without its final newline when it ends in one (`$` also matches there) |
| `EquationParser.Coefficient` | linear_equation_solver.py:97-102 | `''` and `'+'` give 1 and `'-'` gives -1; the group fails exactly when it has no digit and is none of those three |
| `EquationParser.DecimalCoefficient` | linear_equation_solver.py:97-102 | a group `[+-]<w>.<f>` with a digit on either side reads as `w + f / 10^len(f)`, negated for `-` |
| `EquationParser.DecimalWithBothParts` | linear_equation_solver.py:101-102 | `float('2.5')` is 2.5 |
| `EquationParser.DecimalWithoutWholePart` | linear_equation_solver.py:101-102 | `float('-.5')` is -0.5 |
| `EquationParser.DecimalWithoutFraction` | linear_equation_solver.py:101-102 | `float('3.')` is 3 |
| `EquationParser.ParseTerm` | linear_equation_solver.py:90-103 | a term without a match raises `InvalidTerm`; a parsed term's name is the match's second group; the only failures are an invalid term or an invalid number |
| `EquationParser.TermRoundTrip` | linear_equation_solver.py:87-102 | rendering `[-]<k><name>` and parsing it back gives `name` with coefficient `k`, or `-k` |
| `EquationParser.DecimalTermRoundTrip` | linear_equation_solver.py:87-102 | rendering `[+-]<w>.<f><name>` and parsing it back gives `name` with the decimal's value |
| `EquationParser.RejectedAt` | linear_equation_solver.py:91-93 | a term whose text after the longest numeric prefix is not a word raises `InvalidTerm` |
| `EquationParser.TwoDecimalPointsRejected` | linear_equation_solver.py:87-93 | `2.5.3x` raises `InvalidTerm` |
| `EquationParser.ProductRejected` | linear_equation_solver.py:87-93 | `x*y` raises `InvalidTerm` |
| `EquationParser.KeepTerms` | linear_equation_solver.py:85 | kept terms are neither empty nor `-`; every kept term was a fragment; every other fragment is kept |
| `EquationParser.KeepTermsAppend` | linear_equation_solver.py:85 | the filter keeps the order: one fragment survives exactly when it is neither empty nor `-`, and the result for a concatenation is the concatenation of the results |
| `EquationParser.RewriteSignsPrefixed` | linear_equation_solver.py:82 | after the rewrite every minus sign directly follows a plus sign |
| `EquationParser.SingleMinusRewritten` | linear_equation_solver.py:82 | `x-y` is rewritten to `x+-y` |
| `EquationParser.DoubleMinusRewritten` | linear_equation_solver.py:82 | `x--y` is rewritten to `x+y` |
| `EquationParser.SideTermsShaped` | linear_equation_solver.py:82-85 | every term of a side is non-empty, not `-`, holds no `+`, and carries a minus sign only in front |
| `EquationParser.AllParseCons` | linear_equation_solver.py:90-93 | all terms parse exactly when the first does and all the rest do |
| `EquationParser.Accumulate` | linear_equation_solver.py:89-106 | it succeeds exactly when every term parses; then the keys are the names used, and each value is the sum of that name's coefficients; otherwise the error is the first failing term's |
| `EquationParser.ParseSide` | linear_equation_solver.py:81-106 | a side succeeds exactly when all its terms parse; then it maps each variable used to the sum of its coefficients |
| `EquationParser.SingleTermSide` | linear_equation_solver.py:89-106 | a side with one term is the one-entry map of that term |
| `EquationParser.Combine` | linear_equation_solver.py:111-112 | the keys of either side appear; each key of the right side maps to left minus right, and every other key keeps its left value |
| `EquationParser.CombineSwap` | linear_equation_solver.py:108-114 | combining the sides the other way round negates every coefficient |
| `EquationParser.RemoveSpacesFilter` | linear_equation_solver.py:75 | removing spaces leaves no space, keeps the number of every other character and works piece by piece, so the order is kept |
| `EquationParser.ParseEquation` | linear_equation_solver.py:74-114 | an `EqualsCount` error happens exactly when the space-free line does not hold exactly one `=`; a success is the combination of the two sides, both of which parse |
| `EquationParser.SpacesIgnored` | linear_equation_solver.py:75 | inserting a space anywhere leaves the result unchanged |
| `EquationParser.SidesOf` | linear_equation_solver.py:75-79 | without `=` in either side, the space-free `l=r` holds one `=` and splits into the two space-free sides |
| `EquationParser.SwapSides` | linear_equation_solver.py:74-114 | `r = l` parses to the negation of `l = r` |
| `EquationParser.EquationOf` | linear_equation_solver.py:77-114 | one `=` and two sides that parse give the combination of the two sides |
| `EquationParser.DanglingSignAccepted` | linear_equation_solver.py:82-85 | `x+=5` is accepted as `x - 5 = 0` |
| `EquationParser.LoneVariableSide` | linear_equation_solver.py:82-98 | the side `x+` is `{x: 1}` |
| `EquationParser.ConstantSide` | linear_equation_solver.py:82-102 | the side `5` is `{"": 5}` |
| `EquationParser.NonBlank` | linear_equation_solver.py:122 | kept lines are non-blank lines of the input; all-blank input keeps nothing |
| `EquationParser.NonBlankAppend` | linear_equation_solver.py:122 | the filter keeps the order: one line survives exactly when it is not blank, and the result for a concatenation is the concatenation of the results |
| `EquationParser.ParseAll` | linear_equation_solver.py:124 | it succeeds exactly when every line parses, giving one equation per line in order; otherwise the error is the first failing line's error |
| `EquationParser.FirstFailingLineWins` | linear_equation_solver.py:124 | of two lines that both raise, the first line's error is the one raised |
| `EquationParser.ParseEquations` | linear_equation_solver.py:117-124 | `NoEquations` happens exactly for the empty text; otherwise each non-blank line is parsed, in order |
| `EquationParser.BlankInputGivesNoEquations` | linear_equation_solver.py:117-124 | non-empty, whitespace-only text gives no equations and no error |
| `SystemAssembler.Variables` | linear_equation_solver.py:129 | the variable list is strictly increasing, has no constant key, and holds exactly the variables some equation mentions |
| `SystemAssembler.VariablesCanonical` | linear_equation_solver.py:129 | it is the only strictly increasing listing of the variable set |
| `SystemAssembler.VariablesOrderIndependent` | linear_equation_solver.py:129 | reordering the equations does not change the variable list |
| `SystemAssembler.IndexOf` | linear_equation_solver.py:141 | `index` gives the first position holding the key |
| `SystemAssembler.IndexOfDistinct` | linear_equation_solver.py:141 | in a strictly increasing list, `index` of the `j`-th element is `j` |
| `SystemAssembler.EquationsToMatrix` | linear_equation_solver.py:127-146 | one row of width `len(variables) + 1` per equation, laid out by the sorted variable list |
| `SystemAssembler.VariableColumn` | linear_equation_solver.py:137-142 | each variable of an equation lands in the column the variable list gives it |
| `SystemAssembler.RowDeterminesEquation` | linear_equation_solver.py:135-144 | reading a row back through the variable list gives each coefficient and the negated constant; every variable absent from the equation is 0 |
| `SolverFrontEnd.Buffer` | linear_equation_solver.py:47-48 | the ctypes array holds the data and then zeros, up to its declared size |
| `SolverFrontEnd.Solve` | linear_equation_solver.py:41-61 | an empty matrix and too many entries are errors; otherwise statuses 0 and 2 and unknown statuses raise their own errors, and status 1 returns the de-flattened buffer |
| `SolverFrontEnd.SolvePreservesShape` | linear_equation_solver.py:41-57 | for a rectangular matrix, a backend that keeps the buffer size and reports status 1 returns a matrix of the same shape; an untouched buffer gives the matrix itself |
| `SolverFrontEnd.ResultLines` | linear_equation_solver.py:432-436 | for a readable result, one line per variable |
| `SolverFrontEnd.FirstUnreadable` | linear_equation_solver.py:433-434 | the first variable from a position on whose row is missing or empty, or the end of the list |
| `SolverFrontEnd.ResultString` | linear_equation_solver.py:432-436 | it fails exactly when some variable's row is missing or empty, naming the first such variable; otherwise it is the lines concatenated |
| `SolverFrontEnd.ResultReadsRowPerVariable` | linear_equation_solver.py:432-436 | with a sorted variable list, variable `i` is read from the last column of row `i`, and the text is produced when there is a row per variable |
| `SolverFrontEnd.MissingRowRaises` | linear_equation_solver.py:433-434 | with one row and two variables, the second variable's read raises |
| `Matrix.IsZeroBand` | LinSysSolverLib/LinSysSolver.c:5-11 | `is_zero` is `fabs(x) < EPSILON`: it holds for 0, treats a value and its negation alike, and fails at `EPSILON` |
| `Matrix.FirstNonZero` | LinSysSolverLib/LinSysSolver.c:20-32 | -1 exactly when every entry from `start` on is zero; otherwise the first row at or after `start` whose entry is not zero |
| `Matrix.FirstNonZeroInCol` | LinSysSolverLib/LinSysSolver.c:20-32 | the loop computes `FirstNonZero` |
| `Matrix.Swapped` | LinSysSolverLib/LinSysSolver.c:35-43 | rows `a` and `b` exchange their entries from column `start` on; every other entry is unchanged |
| `Matrix.SwapRows` | LinSysSolverLib/LinSysSolver.c:35-43 | the column loop computes `Swapped` |
| `Matrix.SwapTwice` | LinSysSolverLib/LinSysSolver.c:35-43 | exchanging the same rows twice restores the matrix |
| `Matrix.Normalized` | LinSysSolverLib/LinSysSolver.c:166-170 | the pivot becomes 1; each pivot-row entry from the pivot column on, times the old pivot, is the old entry; all else is unchanged |
| `Matrix.NormalizeRow` | LinSysSolverLib/LinSysSolver.c:166-170 | the loop with the pivot read once computes `Normalized` |
| `Matrix.Eliminated` | LinSysSolverLib/LinSysSolver.c:111-133 | the pivot row, rows outside the range and columns left of the pivot are unchanged; with the skip, zero-factor rows are unchanged; every row that is not skipped loses, from the pivot column on, its factor times the pivot row, so under a unit pivot its pivot-column entry becomes exactly 0 |
| `Matrix.SubtractPivotRow` | LinSysSolverLib/LinSysSolver.c:121-131 | from the pivot column on, each entry loses the factor, read before the loop, times the pivot-row entry |
| `Matrix.SweepRows` | LowLevelLib/LinSysSolverAsmLib/Libc.c:167-183 | the row loop replaces each non-pivot row of the range by its eliminated form |
| `Matrix.SweepExtend` | LowLevelLib/LinSysSolverAsmLib/Libc.c:167-183 | one more row of the loop replaces just that row |
| `Matrix.RowsOp` | LowLevelLib/LinSysSolverAsmLib/Libc.c:156-186 | `rows_op_thread` on `[start, end)` computes `Eliminated` on that range |
| `Matrix.EliminateSingleThread` | LinSysSolverLib/LinSysSolver.c:111-133 | `eliminate_single_thread` is elimination over every row |
| `Matrix.EliminatedSplit` | LowLevelLib/LinSysSolverAsmLib/Libc.c:188-224 | eliminating `[lo, mid)` and then `[mid, hi)` is eliminating `[lo, hi)` |
| `Matrix.EliminatedCommute` | LowLevelLib/LinSysSolverAsmLib/Libc.c:188-224 | workers on disjoint ranges commute |
| `Matrix.HasPivot` | LinSysSolverLib/LinSysSolver.c:152-160 | an iteration finds a pivot exactly when some entry at or below the diagonal of its column is not zero |
| `Matrix.WithPivot` | LinSysSolverLib/LinSysSolver.c:152-164 | a usable diagonal entry leaves the matrix unchanged; otherwise the first later row with a usable entry is the swap partner, the two rows exchange their entries from the pivot column on, and every other entry is unchanged; after it the diagonal entry is not zero |
| `Matrix.PreparePivot` | LinSysSolverLib/LinSysSolver.c:152-164 | it reports whether the iteration goes on; if so it returns `WithPivot`, and otherwise the matrix unchanged |
| `Matrix.PivotStep` | LinSysSolverLib/LinSysSolver.c:150-173 | an iteration keeps the shape; a column with nothing usable at or below the diagonal is skipped unchanged |
| `Matrix.ReduceDone` | LinSysSolverLib/LinSysSolver.c:150-173 | after the first `k` iterations each of the columns `0..k-1` holds a unit pivot cleared from every other row, or had nothing usable |
| `Matrix.PivotStepFrame` | LinSysSolverLib/LinSysSolver.c:150-173 | an iteration leaves every column left of its pivot column alone |
| `Matrix.PivotStepDone` | LinSysSolverLib/LinSysSolver.c:150-173 | after an iteration its column holds a unit pivot cleared in every other row, or had nothing usable |
| `Matrix.PivotStepKeepsDone` | LinSysSolverLib/LinSysSolver.c:150-173 | an iteration keeps an earlier done column done |
| `Matrix.PivotStepKeepsAllDone` | LinSysSolverLib/LinSysSolver.c:150-173 | after iteration `row`, columns `0..row` are all done |
| `Matrix.ColumnDoneFrame` | LinSysSolverLib/LinSysSolver.c:150-173 | whether a column is done depends only on the columns up to it |
| `Matrix.Advance` | LinSysSolverLib/LinSysSolver.c:150-173 | one more iteration reaches the next row of the reduction |
| `Matrix.AdvanceDone` | LinSysSolverLib/LinSysSolver.c:150-173 | one more iteration reaches the next row with one more column done |
| `Matrix.HasSolutions` | LinSysSolverLib/LinSysSolver.c:46-75 | true exactly when every row has at most one non-zero coefficient and no row reads `0 = b` with `b` not zero |
| `Matrix.RowContainsOnlyZeros` | LinSysSolverLib/LinSysSolver.c:77-89 | true exactly when every entry of the row, the right-hand side included, is zero |
| `Matrix.CleanRhs` | LowLevelLib/LinSysSolverAsmLib/Libc.c:268-277 | every right-hand side becomes exactly 0 or stays clearly not zero; coefficients are untouched; which entries are zero does not change |
| `Matrix.RemoveMinusZeros` | LowLevelLib/LinSysSolverAsmLib/Libc.c:268-277 | the loop computes `CleanRhs` |
| `Matrix.CleanRhsKeepsColumnsDone` | LowLevelLib/LinSysSolverAsmLib/Libc.c:268-277 | the clean-up keeps every done variable column done |
| `Partition.ThreadCount` | LowLevelLib/LinSysSolverAsmLib/Libc.c:190-191 | the thread count is `min(64, num_threads)` and between 1 and 64 |
| `Partition.ThreadRanges` | LowLevelLib/LinSysSolverAsmLib/Libc.c:195-216 | one range per thread |
| `Partition.Partition` | LowLevelLib/LinSysSolverAsmLib/Libc.c:195-216 | the range loop computes `ThreadRanges` |
| `Partition.RangesContiguous` | LowLevelLib/LinSysSolverAsmLib/Libc.c:195-216 | the ranges start at 0, end at `rows`, follow one another without gap and are never negative; with more threads than rows all but the last are empty |
| `Partition.RangesDisjoint` | LowLevelLib/LinSysSolverAsmLib/Libc.c:195-216 | an earlier range ends before a later one starts |
| `Partition.RangesCover` | LowLevelLib/LinSysSolverAsmLib/Libc.c:195-216 | every row lies in exactly one range |
| `Partition.EliminateMultiThread` | LowLevelLib/LinSysSolverAsmLib/Libc.c:188-224 | the workers over all ranges give the single-threaded elimination, whatever the thread count |
| `LinSysSolver.SolutionsInSystem` | LinSysSolverLib/LinSysSolver.c:91-108 | 0 exactly when `has_solutions` rejects; 2 exactly when it accepts and one of the first `cols - 1` rows is entirely zero; 1 otherwise |
| `LinSysSolver.Iteration` | LinSysSolverLib/LinSysSolver.c:152-172 | the loop body computes `PivotStep` with the zero-factor skip |
| `LinSysSolver.Iterations` | LinSysSolverLib/LinSysSolver.c:150-173 | the loop computes the reduction and leaves every handled column done |
| `LinSysSolver.SolveLinearSystem` | LinSysSolverLib/LinSysSolver.c:142-176 | `cols - 1` iterations leave every variable column done, and the status classifies the reduced matrix as `solutions_in_system` does |
| `LinSysSolver.DependentSystemReportedUnsolvable` | LinSysSolverLib/LinSysSolver.c:46-75 | `x + y = 2, 2x + 2y = 4` reduces to `[[1, 1, 2], [0, 0, 0]]`, which `has_solutions` rejects |
| `LibcSolver.SolutionsInSystemAsWritten` | LowLevelLib/LinSysSolverAsmLib/Libc.c:103-121 | an unsolvable matrix is 2 with more variables than rows and 0 otherwise; a solvable one is 2 at a zero row, reads past the buffer when it runs out of rows first, and is 1 otherwise |
| `LibcSolver.UnderdeterminedReadsPastEnd` | LowLevelLib/LinSysSolverAsmLib/Libc.c:112-114 | for `x + 0y = 1`, the matrix `[[1, 0, 1]]` passes the iteration and the clean-up unchanged and is solvable; its only row is not zero, and there are fewer rows than variables, so the scan reads past the buffer |
| `LibcSolver.SolutionsInSystem` | LowLevelLib/LinSysSolverAsmLib/Libc.c:103-121 | the same classification with the scan stopped at the last row: a solvable system with fewer rows than variables is infinite, a solvable one is 1 exactly when it has a row per variable and none of them is zero, and a solvable one is never 0 |
| `LibcSolver.Iteration` | LowLevelLib/LinSysSolverAsmLib/Libc.c:237-265 | one thread or several, the loop body computes `PivotStep` with the zero-factor skip |
| `LibcSolver.Iterations` | LowLevelLib/LinSysSolverAsmLib/Libc.c:233-266 | the loop computes the reduction and leaves every handled column done |
| `LibcSolver.ReduceAndClean` | LowLevelLib/LinSysSolverAsmLib/Libc.c:231-277 | `min(cols - 1, rows)` iterations and the clean-up give every right-hand side as exactly 0 or clearly not zero, and leave the handled columns done, whatever the thread count |
| `LibcSolver.SolveLinearSystemAsWritten` | LowLevelLib/LinSysSolverAsmLib/Libc.c:231-280 | the reduced matrix is classified by `solutions_in_system` as written: a solvable system with fewer rows than variables and no zero row reads past the buffer |
| `LibcSolver.SolveLinearSystem` | LowLevelLib/LinSysSolverAsmLib/Libc.c:231-280 | the same reduction classified with the scan stopped at the last row: the status is always 0, 1 or 2; an unsolvable reduced system is 0, or 2 when there are more variables than rows; a solvable one is never 0, is 2 exactly when a row is missing or zero, and 1 exactly when every variable has a non-zero row |
| `LibcSolver.OneEquationOneUnknown` | LowLevelLib/LinSysSolverAsmLib/Libc.c:107-120 | `x = 1` stays as it is under the reduction and is solvable with a non-zero row for its variable, so the corrected solver reports one solution |
| `LinSysSolverC.SolutionsInSystem` | LinSysSolverLib/LinSysSolverC/LinSysSolverC.c:56-88 | 0 exactly when some row is inconsistent; otherwise 2 exactly when the rank is below the number of variables, and 1 exactly when it is not |
| `LinSysSolverC.PivotsGiveFullRank` | LinSysSolverLib/LinSysSolverC/LinSysSolverC.c:58-73 | unit pivots on the diagonal of the first `k` rows give rank `k` over those rows |
| `LinSysSolverC.DependentSystemHasRankOne` | LinSysSolverLib/LinSysSolverC/LinSysSolverC.c:56-88 | the reduced form of `x + y = 2, 2x + 2y = 4` has no inconsistent row and rank 1, below its 2 variables |
| `LinSysSolverC.Iteration` | LinSysSolverLib/LinSysSolverC/LinSysSolverC.c:212-232 | the loop body computes `PivotStep` without the zero-factor skip, through the partitioned elimination |
| `LinSysSolverC.Iterations` | LinSysSolverLib/LinSysSolverC/LinSysSolverC.c:208-233 | the loop computes the reduction and leaves every handled column done |
| `LinSysSolverC.SolveLinearSystem` | LinSysSolverLib/LinSysSolverC/LinSysSolverC.c:205-247 | `min(cols - 1, rows)` iterations and the clean-up leave the handled columns done; the status is the rank classification of the result |
| `DataGenerator.WordOfLength` | data_generator.py:9-10 | tuple `idx` of `product(letters, repeat=n)` is a lower-case word of length `n` |
| `DataGenerator.WordIndexRoundTrip` | data_generator.py:9-10 | numbering a length's words and reading the number back gives the index |
| `DataGenerator.IndexWordRoundTrip` | data_generator.py:9-10 | every lower-case word is the tuple at its own index |
| `DataGenerator.WordOfLengthOrder` | data_generator.py:9-10 | within one length, a later tuple is a lexicographically later word |
| `DataGenerator.Word` | data_generator.py:4-11 | every word of the stream is a non-empty lower-case word |
| `DataGenerator.WordAtOffset` | data_generator.py:4-11 | position `Offset(n) + idx`, just after all shorter words, holds word `idx` of length `n` |
| `DataGenerator.FirstWords` | data_generator.py:4-11 | the first 26 words are the single letters, and `aa` comes next |
| `DataGenerator.Shortlex` | data_generator.py:4-11 | a later word is longer, or as long and lexicographically later; no word repeats |
| `DataGenerator.EveryWordProduced` | data_generator.py:4-11 | every non-empty lower-case word appears in the stream |
| `DataGenerator.GenerateWords` | data_generator.py:4-11 | the nested loops produce the first `n` words of the stream in order |
| `DataGenerator.LineHasNoNewline` | data_generator.py:17 | an equation line holds no newline |
| `DataGenerator.RenderedSplit` | data_generator.py:16-19 | splitting the rendered output at newlines gives the equation lines and a final empty line |
| `DataGenerator.GenerateEquations` | data_generator.py:13-22 | the output's lines are the `n` equation lines plus one empty line, in sorted order; the output holds `n` newlines and, for `n >= 1`, starts with one |

## Left out

- Tkinter user interface (menus, frames, file dialogs, message boxes): user interaction, not logic.
- Loading the native library through ctypes, and the `ASM_LIB` choice that raises `NotImplementedError`. The native call is the `Backend` parameter of `SolverFrontEnd.Solve`.
- `solve_with_variables`: after `solve` it calls `self._result_to_string`, which no class of linear_equation_solver.py defines (the GUI's `_result_string` is a different method of a different class), so every call that gets past `solve` raises `AttributeError`. It has no behaviour beyond `solve` worth modelling.
- Float formatting in `_result_string`: it is the `show` parameter of `SolverFrontEnd.ResultString`.
- `print` and the file write in `data_generator.py`: output only.
- IEEE `double` and `float` arithmetic, rounding and `-0.0`. Entries are exact reals, so `CleanRhs` keeps only its effect on which values are zero. `float(num_str)` is the exact decimal value of the numeric group.
- LinSysSolverC.c compares `float` values with the `float` constant `1e-9f`. The model uses the same `Matrix.Eps` for all three solvers.
- Threads: `CreateThread`, `WaitForMultipleObjects` and `CloseHandle`, the early return when a thread cannot be created, and the sharing of the buffer between threads. The workers run one after another over their ranges. `Matrix.EliminatedCommute` shows that their order does not matter.
- C integer widths (`int`, `int64_t`) and overflow of `sizeX * row + col`. Sizes are unbounded naturals.
- LinSysSolver.SolveLinearSystem: requires `rows >= cols - 1`. With fewer rows, `solve_linear_system` in LinSysSolver.c reads rows that do not exist.
- LibcSolver.SolveLinearSystem: uses the corrected `LibcSolver.SolutionsInSystem`, so it does not promise the read past the buffer that Libc.c:279 makes through the scan as written; `LibcSolver.SolveLinearSystemAsWritten` models that call.
- Python's Unicode `\d`, `\w` and `str.strip()` whitespace: only their ASCII members are modelled.
- Debug entry points (`*DebugInterface.c`, `LinSysSolverAsmLib.cpp`) and the `LinearSystemSolverLib` draft: they are not part of the solving path.

## Findings

| source | as written | input that shows it | evidently intended | confidence | as-written member | corrected member |
|---|---|---|---|---|---|---|
| LinSysSolverLib/LinSysSolver.c:46-75 | `has_solutions` rejects every row with two non-zero coefficients, so `solutions_in_system` returns 0 ("no solution") for a dependent system | `x + y = 2`, `2x + 2y = 4`: the matrix `[[1, 1, 2], [2, 2, 4]]` reduces to `[[1, 1, 2], [0, 0, 0]]` and is reported as 0 | 2 (infinitely many solutions), which the rank count of LinSysSolverC.c gives | not executed | `LinSysSolver.DependentSystemReportedUnsolvable` | `LinSysSolverC.DependentSystemHasRankOne` |
| LowLevelLib/LinSysSolverAsmLib/Libc.c:112-114 | the zero-row scan runs over the first `cols - 1` rows even when there are fewer rows, and reads past the buffer | `x + 0y = 1`: the matrix `[[1, 0, 1]]`, with one row and two variables, is solvable and its row is not zero, so row 1 is read | stop at the last row and report 2, since a missing row leaves a variable free | not executed | `LibcSolver.UnderdeterminedReadsPastEnd` | `LibcSolver.SolutionsInSystem` |

In the first row, `LinSysSolver.SolutionsInSystem` models the classifier as
written. `LinSysSolverC.SolutionsInSystem` is the repository's own corrected
classifier, and `LinSysSolverC.DependentSystemHasRankOne` shows it classifies
the same reduced matrix as 2.

In the second row, `LibcSolver.SolutionsInSystemAsWritten` models the scan as
written, and `LibcSolver.SolveLinearSystemAsWritten` is the whole solver with
it. `LibcSolver.SolveLinearSystem` is the whole solver with the corrected
`LibcSolver.SolutionsInSystem`.

=== FILE: data_generator.dfy ===
/** data_generator.py: `generate_words`, the endless stream of words over
    `a`–`z` in shortlex order (all words of one length in lexicographic
    order, then the next length), and `generate_equations`, which renders
    the first `n` words as `"<w> = 0"` lines and sorts the lines. */
module DataGenerator {
  import Text

  /** `letters[d]`. */
  function Letter(d: nat): (c: char)
    requires d < 26
    ensures 'a' <= c <= 'z'
  {
    (('a' as int) + d) as char
  }

  /** A lower-case word: only the letters `a`–`z`. */
  predicate IsLowerWord(w: string)
  {
    forall i :: 0 <= i < |w| ==> 'a' <= w[i] <= 'z'
  }

  /** The number of words of length `n`. */
  function Pow26(n: nat): (p: nat)
    ensures p >= 1
  {
    if n == 0 then 1 else 26 * Pow26(n - 1)
  }

  /** Tuple number `idx` of `itertools.product(letters, repeat=n)`: the
      last letter varies fastest. */
  function WordOfLength(n: nat, idx: nat): (w: string)
    requires idx < Pow26(n)
    ensures |w| == n && IsLowerWord(w)
  {
    if n == 0 then ""
    else WordOfLength(n - 1, idx / 26) + [Letter(idx % 26)]
  }

  /** The position of a lower-case word among the words of its length. */
  function IndexOf(w: string): (idx: nat)
    requires IsLowerWord(w)
    ensures idx < Pow26(|w|)
  {
    if |w| == 0 then 0
    else IndexOf(w[..|w| - 1]) * 26 + (w[|w| - 1] as int - 'a' as int)
  }

  /** Numbering the words of one length is a bijection. */
  lemma {:induction false} WordIndexRoundTrip(n: nat, idx: nat)
    requires idx < Pow26(n)
    ensures IndexOf(WordOfLength(n, idx)) == idx
  {
    if n > 0 {
      var q, d := idx / 26, idx % 26;
      var front := WordOfLength(n - 1, q);
      var w := front + [Letter(d)];
      assert WordOfLength(n, idx) == w;
      assert w[..|w| - 1] == front;
      WordIndexRoundTrip(n - 1, q);
      assert IndexOf(w) == q * 26 + d;
    }
  }

  lemma {:induction false} IndexWordRoundTrip(w: string)
    requires IsLowerWord(w)
    ensures WordOfLength(|w|, IndexOf(w)) == w
  {
    if |w| > 0 {
      var front, last := w[..|w| - 1], w[|w| - 1];
      var d := last as int - 'a' as int;
      IndexWordRoundTrip(front);
      var q := IndexOf(front);
      assert IndexOf(w) == q * 26 + d;
      DigitSplit(q, d);
      assert Letter(d) == last;
      assert WordOfLength(|w|, q * 26 + d) == WordOfLength(|w| - 1, q) + [last];
      assert w == front + [last];
    }
  }

  lemma DigitSplit(q: nat, d: nat)
    requires d < 26
    ensures (q * 26 + d) / 26 == q && (q * 26 + d) % 26 == d
  {
  }

  /** Where stream position `k` falls, counting from the first word of
      length `n`: the word length and the index among words of that length. */
  function Place(k: nat, n: nat): (p: (nat, nat))
    ensures p.0 >= n && p.1 < Pow26(p.0)
    decreases k
  {
    if k < Pow26(n) then (n, k) else Place(k - Pow26(n), n + 1)
  }

  /** Word number `k` (from 0) of `generate_words`. */
  function Word(k: nat): (w: string)
    ensures |w| >= 1 && IsLowerWord(w)
  {
    WordOfLength(Place(k, 1).0, Place(k, 1).1)
  }

  /** The number of words shorter than `n` (and at least one letter long). */
  function Offset(n: nat): nat
    requires n >= 1
  {
    if n == 1 then 0 else Offset(n - 1) + Pow26(n - 1)
  }

  lemma {:induction false} OffsetGrows(a: nat, b: nat)
    requires 1 <= a <= b
    ensures Offset(a) + (if a < b then Pow26(a) else 0) <= Offset(b)
    decreases b - a
  {
    if a < b - 1 {
      OffsetGrows(a, b - 1);
    }
  }

  /** The words of length `n` occupy positions `Offset(n)` onwards. */
  lemma {:induction false} PlaceOfOffset(n: nat, from: nat, idx: nat)
    requires 1 <= from <= n && idx < Pow26(n) && Offset(from) <= Offset(n)
    ensures Place(Offset(n) - Offset(from) + idx, from) == (n, idx)
    decreases n - from
  {
    OffsetGrows(from, n);
    if from < n {
      OffsetGrows(from + 1, n);
      assert Offset(from + 1) == Offset(from) + Pow26(from);
      PlaceOfOffset(n, from + 1, idx);
    }
  }

  lemma PlaceAtOffset(n: nat, idx: nat)
    requires n >= 1 && idx < Pow26(n)
    ensures Place(Offset(n) + idx, 1) == (n, idx)
  {
    OffsetGrows(1, n);
    PlaceOfOffset(n, 1, idx);
  }

  lemma WordAtPlace(n: nat, idx: nat, k: nat)
    requires n >= 1 && idx < Pow26(n)
    requires Place(k, 1) == (n, idx)
    ensures Word(k) == WordOfLength(n, idx)
  {
  }

  /** Word `idx` of length `n` is produced at position `Offset(n) + idx`. */
  lemma WordAtOffset(n: nat, idx: nat, k: nat)
    requires n >= 1 && idx < Pow26(n) && k == Offset(n) + idx
    ensures Word(k) == WordOfLength(n, idx)
  {
    PlaceAtOffset(n, idx);
    WordAtPlace(n, idx, k);
  }

  /** The first 26 words are the single letters, and `aa` follows them. */
  lemma FirstWords()
    ensures forall k :: 0 <= k < 26 ==> Word(k) == [Letter(k)]
    ensures Word(26) == "aa"
  {
    forall k | 0 <= k < 26
      ensures Word(k) == [Letter(k)]
    {
      assert Place(k, 1) == (1, k);
      assert WordOfLength(0, k / 26) == "";
    }
    assert Place(26, 1) == Place(0, 2) == (2, 0);
    assert WordOfLength(1, 0) == "a";
  }

  /** Later positions have a larger place: a longer word, or the same
      length and a later index. */
  lemma {:induction false} PlaceOrder(k1: nat, k2: nat, n: nat)
    requires k1 < k2
    ensures var p1 := Place(k1, n); var p2 := Place(k2, n);
            p1.0 < p2.0 || (p1.0 == p2.0 && p1.1 < p2.1)
    decreases k1
  {
    if k1 >= Pow26(n) {
      PlaceOrder(k1 - Pow26(n), k2 - Pow26(n), n + 1);
    }
  }

  lemma {:induction false} LessAppend(a: string, b: string, x: char, y: char)
    requires |a| == |b|
    requires Text.Less(a, b) || (a == b && x < y)
    ensures Text.Less(a + [x], b + [y])
    decreases |a|
  {
    if |a| > 0 {
      assert (a + [x])[1..] == a[1..] + [x] && (b + [y])[1..] == b[1..] + [y];
      if a[0] == b[0] {
        LessAppend(a[1..], b[1..], x, y);
      }
    }
  }

  /** Within one length, a later index gives a lexicographically later word. */
  lemma {:induction false} WordOfLengthOrder(n: nat, i: nat, j: nat)
    requires i < j < Pow26(n)
    ensures Text.Less(WordOfLength(n, i), WordOfLength(n, j))
  {
    if i / 26 < j / 26 {
      WordOfLengthOrder(n - 1, i / 26, j / 26);
    }
    LessAppend(WordOfLength(n - 1, i / 26), WordOfLength(n - 1, j / 26), Letter(i % 26), Letter(j % 26));
  }

  /** The stream is in shortlex order: word length never decreases, and
      words of one length come in lexicographic order; hence no word is
      produced twice. */
  lemma Shortlex(k1: nat, k2: nat)
    requires k1 < k2
    ensures |Word(k1)| <= |Word(k2)|
    ensures |Word(k1)| == |Word(k2)| ==> Text.Less(Word(k1), Word(k2))
    ensures Word(k1) != Word(k2)
  {
    PlaceOrder(k1, k2, 1);
    var p1 := Place(k1, 1);
    var p2 := Place(k2, 1);
    if p1.0 == p2.0 {
      WordOfLengthOrder(p1.0, p1.1, p2.1);
      Text.LessIrreflexive(Word(k1));
    }
  }

  /** Where a non-empty lower-case word appears in the stream. */
  function Position(w: string): nat
    requires |w| >= 1 && IsLowerWord(w)
  {
    Offset(|w|) + IndexOf(w)
  }

  /** Every non-empty lower-case word is produced, at `Position(w)`. */
  lemma EveryWordProduced(w: string)
    requires |w| >= 1 && IsLowerWord(w)
    ensures Word(Position(w)) == w
  {
    WordAtOffset(|w|, IndexOf(w), Position(w));
    IndexWordRoundTrip(w);
  }

  /** The first `n` words, produced the way the generator does: one length
      at a time, each in `itertools.product` order. */
  method GenerateWords(n: nat) returns (ws: seq<string>)
    ensures |ws| == n
    ensures forall k :: 0 <= k < n ==> ws[k] == Word(k)
  {
    ws := [];
    var length := 1;
    while |ws| < n
      invariant |ws| <= n && length >= 1
      invariant |ws| < n ==> |ws| == Offset(length)
      invariant forall k :: 0 <= k < |ws| ==> ws[k] == Word(k)
      decreases n - |ws|
    {
      var idx := 0;
      while idx < Pow26(length) && |ws| < n
        invariant 0 <= idx <= Pow26(length) && |ws| <= n
        invariant |ws| == Offset(length) + idx
        invariant forall k :: 0 <= k < |ws| ==> ws[k] == Word(k)
      {
        WordAtOffset(length, idx, |ws|);
        ws := ws + [WordOfLength(length, idx)];
        idx := idx + 1;
      }
      length := length + 1;
    }
  }

  /** One rendered equation, without its newline. */
  function Line(k: nat): string
  {
    Word(k) + " = 0"
  }

  /** `output` after the loop has run from `i` to `n`: the lines for words
      `i .. n - 1`, each followed by a newline. */
  function Rendered(i: nat, n: nat): string
    decreases n - i
  {
    if i >= n then "" else Line(i) + "\n" + Rendered(i + 1, n)
  }

  /** The lines of one equation per word. */
  function Lines(n: nat): (ls: seq<string>)
    ensures |ls| == n
  {
    seq(n, k requires 0 <= k => Line(k))
  }

  lemma LineHasNoNewline(k: nat)
    ensures '\n' !in Line(k)
  {
    var w := Word(k);
    assert forall c :: 0 <= c < |w| ==> w[c] != '\n';
    assert forall c :: 0 <= c < |Line(k)| ==> Line(k)[c] != '\n' by {
      forall c | 0 <= c < |Line(k)|
        ensures Line(k)[c] != '\n'
      {
        if c < |w| {
          assert Line(k)[c] == w[c];
        } else {
          assert Line(k)[c] == " = 0"[c - |w|];
        }
      }
    }
  }

  lemma {:induction false} RenderedSplit(i: nat, n: nat)
    requires i <= n
    ensures Text.Split(Rendered(i, n), '\n') == Lines(n)[i..] + [""]
    decreases n - i
  {
    if i < n {
      var line, rest := Line(i), Rendered(i + 1, n);
      LineHasNoNewline(i);
      assert Rendered(i, n) == line + ['\n'] + rest;
      Text.SplitPrefix(line, rest, '\n');
      RenderedSplit(i + 1, n);
      LinesFrom(n, i);
      assert [line] + (Lines(n)[i + 1..] + [""]) == ([line] + Lines(n)[i + 1..]) + [""];
    }
  }

  lemma LinesFrom(n: nat, i: nat)
    requires i < n
    ensures Lines(n)[i..] == [Line(i)] + Lines(n)[i + 1..]
  {
    var ls := Lines(n);
    assert ls[i] == Line(i);
    assert ls[i..] == [ls[i]] + ls[i + 1..];
  }

  /** `generate_equations(n)` without its print: the text's lines, split at
      newlines, sorted, and joined again. The result holds exactly the `n`
      equation lines and one empty line, in sorted order; it has `n`
      newlines and, for `n >= 1`, starts with one (the empty line sorts
      first). */
  function GenerateEquations(n: nat): (out: string)
    ensures var lines := Text.Split(out, '\n');
            && multiset(lines) == multiset(Lines(n) + [""])
            && Text.Sorted(lines)
    ensures Text.Count(out, '\n') == n
    ensures n >= 1 ==> out[0] == '\n'
  {
    var unsorted := Text.Split(Rendered(0, n), '\n');
    RenderedSplit(0, n);
    var sorted := Text.Sort(unsorted);
    SortedLines(unsorted, sorted);
    Text.SplitJoin(sorted, '\n');
    if n >= 1 then
      assert unsorted[n] == "";
      EmptyLineFirst(unsorted, sorted);
      Text.Join(sorted, "\n")
    else
      Text.Join(sorted, "\n")
  }

  /** Sorting keeps the number of lines and keeps every line newline-free. */
  lemma SortedLines(unsorted: seq<string>, sorted: seq<string>)
    requires forall i :: 0 <= i < |unsorted| ==> '\n' !in unsorted[i]
    requires multiset(sorted) == multiset(unsorted)
    ensures |sorted| == |unsorted|
    ensures forall i :: 0 <= i < |sorted| ==> '\n' !in sorted[i]
  {
    assert |multiset(sorted)| == |multiset(unsorted)|;
    forall i | 0 <= i < |sorted|
      ensures '\n' !in sorted[i]
    {
      assert sorted[i] in multiset(unsorted);
    }
  }

  /** The empty line sorts first, so the joined text starts with a newline. */
  lemma EmptyLineFirst(unsorted: seq<string>, sorted: seq<string>)
    requires Text.Sorted(sorted) && multiset(sorted) == multiset(unsorted)
    requires |unsorted| >= 2 && unsorted[|unsorted| - 1] == ""
    ensures |sorted| == |unsorted|
    ensures |Text.Join(sorted, "\n")| >= 1 && Text.Join(sorted, "\n")[0] == '\n'
  {
    assert |multiset(sorted)| == |multiset(unsorted)|;
    assert "" in multiset(sorted) by {
      assert unsorted[|unsorted| - 1] in multiset(unsorted);
    }
    var j :| 0 <= j < |sorted| && sorted[j] == "";
    if j > 0 {
      assert Text.LessEq(sorted[0], sorted[j]);
    }
    assert sorted[0] == "";
    assert Text.Join(sorted, "\n") == sorted[0] + "\n" + Text.Join(sorted[1..], "\n");
  }
}

=== FILE: equation_parser.dfy ===
/** The text front end of linear_equation_solver.py: `parse_linear_equation`
    (with its inner `parse_side`) and `parse_linear_equations`.

    An equation is a map from variable name to coefficient; the empty name
    `""` is the constant key.  A line `L = R` becomes the map of `L - R`. */
module EquationParser {
  import opened Wrappers
  import Text

  type Equation = map<string, real>

  /** The `ValueError`s the parser raises, with the text they mention. */
  datatype ParseError =
    | EqualsCount(equation: string)   // not exactly one '=' after removing spaces
    | InvalidTerm(term: string)       // the term does not match the term pattern
    | InvalidNumber(numStr: string)   // `float(num_str)` rejects the numeric part
    | NoEquations                     // the whole input text is empty

  /** Coefficient of `k`, 0 when absent (Python `d.get(k, 0)`). */
  function Get(e: Equation, k: string): real
  {
    if k in e then e[k] else 0.0
  }

  // ---------------------------------------------------------------------
  // The term pattern `^([+-]?[\d]*\.?[\d]*)([\w]*)$`
  // ---------------------------------------------------------------------

  predicate IsDigit(c: char)
  {
    '0' <= c <= '9'
  }

  predicate IsSign(c: char)
  {
    c == '+' || c == '-'
  }

  /** `\w`: letters, digits and underscore. */
  predicate IsWordChar(c: char)
  {
    IsDigit(c) || ('a' <= c <= 'z') || ('A' <= c <= 'Z') || c == '_'
  }

  function SignLen(s: string): (n: nat)
    ensures n <= |s|
  {
    if |s| > 0 && IsSign(s[0]) then 1 else 0
  }

  /** The language of the first group `[+-]?[\d]*\.?[\d]*`: an optional sign,
      then digits with at most one decimal point among them. */
  predicate NumberShaped(s: string)
  {
    var a := SignLen(s);
    && (forall i :: a <= i < |s| ==> IsDigit(s[i]) || s[i] == '.')
    && (forall i, j :: a <= i < j < |s| && s[i] == '.' ==> s[j] != '.')
  }

  /** The language of the second group `[\w]*`. */
  predicate WordShaped(s: string)
  {
    forall i :: 0 <= i < |s| ==> IsWordChar(s[i])
  }

  /** A split of `t` at `k` that the pattern accepts. */
  predicate Splits(t: string, k: int)
  {
    0 <= k <= |t| && NumberShaped(t[..k]) && WordShaped(t[k..])
  }

  /** End of the maximal run of digits starting at `i`. */
  function DigitRun(t: string, i: nat): (j: nat)
    requires i <= |t|
    ensures i <= j <= |t|
    ensures forall k :: i <= k < j ==> IsDigit(t[k])
    ensures j == |t| || !IsDigit(t[j])
    decreases |t| - i
  {
    if i < |t| && IsDigit(t[i]) then DigitRun(t, i + 1) else i
  }

  /** End of the longest prefix of `t` in the language of the first group:
      the sign, a run of digits, and, after a decimal point, a second run. */
  function NumberEnd(t: string): (e: nat)
    ensures e <= |t|
  {
    var d1 := DigitRun(t, SignLen(t));
    if d1 < |t| && t[d1] == '.' then DigitRun(t, d1 + 1) else d1
  }

  /** The match of the pattern against `t` with `$` at the very end: the
      groups `(num_str, var_str)`, or `None` when there is no match. */
  function MatchBody(t: string): Option<(string, string)>
  {
    var e := NumberEnd(t);
    if WordShaped(t[e..]) then Some((t[..e], t[e..])) else None
  }

  /** The match splits `t` into the two groups, and among all accepted
      splits it is the one with the longest numeric part (the regex engine's
      greedy choice); there is no match exactly when no split is accepted. */
  lemma MatchBodyGreedy(t: string)
    ensures var r := MatchBody(t);
            && (r.Some? ==> r.value.0 + r.value.1 == t && Splits(t, |r.value.0|))
            && (r.Some? ==> forall k :: Splits(t, k) ==> k <= |r.value.0|)
            && (r.None? <==> forall k :: !Splits(t, k))
  {
    var e := NumberEnd(t);
    NumberPrefixShaped(t);
    LongestSplit(t);
    if WordShaped(t[e..]) {
      assert t[..e] + t[e..] == t;
      assert Splits(t, e);
    }
  }

  lemma NumberPrefixShaped(t: string)
    ensures NumberShaped(t[..NumberEnd(t)])
  {
    var a := SignLen(t);
    var s := t[..NumberEnd(t)];
    assert SignLen(s) == a by {
      if a == 1 {
        assert s[0] == t[0];
      } else if |s| > 0 {
        assert s[0] == t[0];
      }
    }
  }

  /** Every accepted split ends at or before `NumberEnd(t)`, and the split
      there is accepted whenever any split is. */
  lemma LongestSplit(t: string)
    ensures forall k :: Splits(t, k) ==> k <= NumberEnd(t) && WordShaped(t[NumberEnd(t)..])
  {
    var e := NumberEnd(t);
    var a := SignLen(t);
    var d1 := DigitRun(t, a);
    forall k | Splits(t, k)
      ensures k <= e && WordShaped(t[e..])
    {
      var s := t[..k];
      assert k > 0 ==> s[0] == t[0];
      assert k == 0 && |t| > 0 ==> t[k..][0] == t[0];
      assert forall i :: 0 <= i < |t[e..]| ==> t[e..][i] == t[k..][i + e - k];
    }
  }

  /** The groups of a match have the shapes of the pattern's groups. */
  lemma MatchTermShaped(t: string)
    ensures MatchTerm(t).Some? ==>
              NumberShaped(MatchTerm(t).value.0) && WordShaped(MatchTerm(t).value.1)
  {
    var b := if |t| > 0 && t[|t| - 1] == '\n' then t[..|t| - 1] else t;
    MatchBodyGreedy(b);
    if MatchBody(b).Some? {
      assert MatchBody(b).value.0 == b[..|MatchBody(b).value.0|];
    }
  }

  /** `pattern.match(t)`: `$` also matches just before a final newline. */
  function MatchTerm(t: string): Option<(string, string)>
  {
    if |t| > 0 && t[|t| - 1] == '\n' then MatchBody(t[..|t| - 1]) else MatchBody(t)
  }

  /** `r` is the match of the pattern against exactly `b`: the two groups
      spell `b`, the split is accepted and has the longest numeric part, and
      there is no match exactly when no split is accepted. */
  ghost predicate GreedyMatch(b: string, r: Option<(string, string)>)
  {
    && (r.Some? ==> r.value.0 + r.value.1 == b && Splits(b, |r.value.0|))
    && (r.Some? ==> forall k :: Splits(b, k) ==> k <= |r.value.0|)
    && (r.None? <==> forall k :: !Splits(b, k))
  }

  /** `pattern.match(t)` is the greedy match of the whole of `t`, or of `t`
      without its final newline when it ends in one. */
  lemma MatchTermGreedy(t: string)
    ensures |t| > 0 && t[|t| - 1] == '\n' ==> GreedyMatch(t[..|t| - 1], MatchTerm(t))
    ensures (|t| == 0 || t[|t| - 1] != '\n') ==> GreedyMatch(t, MatchTerm(t))
  {
    if |t| > 0 && t[|t| - 1] == '\n' {
      MatchBodyGreedy(t[..|t| - 1]);
    } else {
      MatchBodyGreedy(t);
    }
  }

  // ---------------------------------------------------------------------
  // Numbers: `float(num_str)` on the numeric group
  // ---------------------------------------------------------------------

  function DigitValue(c: char): nat
  {
    if IsDigit(c) then (c as int - '0' as int) as nat else 0
  }

  /** Value of a string of decimal digits, most significant first. */
  function DigitsValue(s: string): nat
  {
    if |s| == 0 then 0 else DigitsValue(s[..|s| - 1]) * 10 + DigitValue(s[|s| - 1])
  }

  function Pow10(n: nat): (p: nat)
    ensures p >= 1
  {
    if n == 0 then 1 else 10 * Pow10(n - 1)
  }

  predicate HasDigit(s: string)
  {
    exists i :: 0 <= i < |s| && IsDigit(s[i])
  }

  /** Position of the decimal point after the sign, or `|s|` when there is none. */
  function DotIndex(s: string, i: nat): (d: nat)
    requires i <= |s|
    ensures i <= d <= |s|
    ensures forall k :: i <= k < d ==> s[k] != '.'
    ensures d < |s| ==> s[d] == '.'
    decreases |s| - i
  {
    if i == |s| || s[i] == '.' then i else DotIndex(s, i + 1)
  }

  /** The exact decimal value of a numeric group: sign, integer digits and
      fractional digits (no binary rounding). */
  function DecimalValue(n: string): real
    requires NumberShaped(n)
  {
    var a := SignLen(n);
    var d := DotIndex(n, a);
    var whole := DigitsValue(n[a..d]) as real;
    var frac := if d < |n| then DigitsValue(n[d + 1..]) as real / Pow10(|n| - d - 1) as real else 0.0;
    if a == 1 && n[0] == '-' then -(whole + frac) else whole + frac
  }

  /** The coefficient a numeric group denotes: `''` and `'+'` give 1, `'-'`
      gives -1, and any other group is read by `float`, which rejects a group
      without a single digit (`'.'`, `'-.'`). */
  function Coefficient(n: string): (r: Result<real, ParseError>)
    requires NumberShaped(n)
    ensures n == "" || n == "+" ==> r == Success(1.0)
    ensures n == "-" ==> r == Success(-1.0)
    ensures r.Failure? <==> !HasDigit(n) && n != "" && n != "+" && n != "-"
    ensures r.Failure? ==> r.error == InvalidNumber(n)
  {
    if n == "" || n == "+" then Success(1.0)
    else if n == "-" then Success(-1.0)
    else if !HasDigit(n) then Failure(InvalidNumber(n))
    else Success(DecimalValue(n))
  }

  /** One `+`-separated term: its variable name (`""` for a constant) and
      its coefficient. */
  function ParseTerm(t: string): (r: Result<(string, real), ParseError>)
    ensures MatchTerm(t).None? ==> r == Failure(InvalidTerm(t))
    ensures r.Success? ==> MatchTerm(t).Some? && r.value.0 == MatchTerm(t).value.1
    ensures r.Success? ==> WordShaped(r.value.0)
    ensures r.Failure? ==> r.error.InvalidTerm? || r.error.InvalidNumber?
  {
    MatchTermShaped(t);
    match MatchTerm(t)
    case None => Failure(InvalidTerm(t))
    case Some((num, name)) =>
      var c :- Coefficient(num);
      Success((name, c))
  }

  // ---------------------------------------------------------------------
  // parse_side
  // ---------------------------------------------------------------------

  /** `side.replace('--', '+').replace('-', '+-')`. */
  function RewriteSigns(side: string): string
  {
    Text.Replace(Text.Replace(side, "--", "+"), "-", "+-")
  }

  /** `[t for t in terms if t and t != '-']`. */
  function KeepTerms(frags: seq<string>): (r: seq<string>)
    ensures forall i :: 0 <= i < |r| ==> r[i] != "" && r[i] != "-"
    ensures forall i :: 0 <= i < |r| ==> r[i] in frags
    ensures forall f :: f in frags && f != "" && f != "-" ==> f in r
  {
    if |frags| == 0 then []
    else if frags[0] == "" || frags[0] == "-" then KeepTerms(frags[1..])
    else [frags[0]] + KeepTerms(frags[1..])
  }

  /** The filter works fragment by fragment and keeps the order: a single
      fragment survives exactly when it is neither `""` nor `"-"`, and the
      result for a concatenation is the concatenation of the results. */
  lemma {:induction false} KeepTermsAppend(a: seq<string>, b: seq<string>)
    ensures forall f :: KeepTerms([f]) == if f == "" || f == "-" then [] else [f]
    ensures KeepTerms(a + b) == KeepTerms(a) + KeepTerms(b)
    decreases |a|
  {
    forall f ensures KeepTerms([f]) == if f == "" || f == "-" then [] else [f] {
      assert [f][1..] == [];
    }
    if |a| == 0 {
      assert a + b == b;
    } else {
      assert (a + b)[0] == a[0] && (a + b)[1..] == a[1..] + b;
      KeepTermsAppend(a[1..], b);
    }
  }

  /** The terms of one side, in order. */
  function SideTerms(side: string): seq<string>
  {
    KeepTerms(Text.Split(RewriteSigns(side), '+'))
  }

  /** After the rewrite every minus sign directly follows a plus sign, so a
      split at `+` leaves each minus at the start of its term. */
  lemma RewriteSignsPrefixed(side: string)
    ensures Text.Follows(RewriteSigns(side), '-', '+')
    ensures |RewriteSigns(side)| > 0 ==> RewriteSigns(side)[0] != '-'
  {
    Text.PrefixedEverywhere(Text.Replace(side, "--", "+"), '-', '+');
  }

  /** A single minus becomes `+-`. */
  lemma SingleMinusRewritten()
    ensures RewriteSigns("x-y") == "x+-y"
  {
    assert Text.Replace("y", "--", "+") == "y";
    assert Text.Replace("-y", "--", "+") == "-y" by { assert "-y"[..2][1] == 'y'; }
    assert Text.Replace("x-y", "--", "+") == "x-y" by { assert "x-y"[..2][0] == 'x'; }
    assert Text.Replace("y", "-", "+-") == "y";
    assert Text.Replace("-y", "-", "+-") == "+-y" by { assert "-y"[..1] == "-"; }
    assert Text.Replace("x-y", "-", "+-") == "x+-y" by { assert "x-y"[..1] != "-"; }
  }

  /** A double minus cancels into a plus. */
  lemma DoubleMinusRewritten()
    ensures RewriteSigns("x--y") == "x+y"
  {
    assert Text.Replace("y", "--", "+") == "y";
    assert Text.Replace("--y", "--", "+") == "+y" by { assert "--y"[..2] == "--"; }
    assert Text.Replace("x--y", "--", "+") == "x+y" by { assert "x--y"[..2][0] == 'x'; }
    Text.ReplaceAbsent("x+y", "-", "+-");
  }

  /** A term of a side is neither empty nor a lone `-`, holds no `+`, and
      can only carry a minus sign in front. */
  predicate TermShaped(t: string)
  {
    && t != "" && t != "-" && '+' !in t
    && forall j :: 0 < j < |t| ==> t[j] != '-'
  }

  /** Every term of a side has the shape of a signed term. */
  lemma SideTermsShaped(side: string)
    ensures forall i :: 0 <= i < |SideTerms(side)| ==> TermShaped(SideTerms(side)[i])
  {
    var rs := RewriteSigns(side);
    var frags := Text.Split(rs, '+');
    RewriteSignsPrefixed(side);
    Text.SplitFollowers(rs, '+', '-');
    var r := KeepTerms(frags);
    forall i | 0 <= i < |r| ensures TermShaped(r[i]) {
      var k :| 0 <= k < |frags| && frags[k] == r[i];
    }
  }

  /** The reader of one term; `parse_side` uses `ParseTerm`. */
  type TermParser = string -> Result<(string, real), ParseError>

  predicate AllParse(terms: seq<string>, parse: TermParser)
  {
    forall i :: 0 <= i < |terms| ==> parse(terms[i]).Success?
  }

  /** Sum of the coefficients of the terms whose variable is `k`. */
  function SumFor(terms: seq<string>, k: string, parse: TermParser): real
    requires AllParse(terms, parse)
  {
    if |terms| == 0 then 0.0
    else
      var (name, c) := parse(terms[0]).value;
      (if name == k then c else 0.0) + SumFor(terms[1..], k, parse)
  }

  /** The variables the terms mention. */
  function NamesOf(terms: seq<string>, parse: TermParser): set<string>
    requires AllParse(terms, parse)
  {
    set i | 0 <= i < |terms| :: parse(terms[i]).value.0
  }

  lemma AllParseCons(terms: seq<string>, parse: TermParser)
    requires |terms| > 0
    ensures AllParse(terms, parse) <==> parse(terms[0]).Success? && AllParse(terms[1..], parse)
  {
    if parse(terms[0]).Success? && AllParse(terms[1..], parse) {
      forall i | 0 <= i < |terms| ensures parse(terms[i]).Success? {
        if i > 0 { assert terms[i] == terms[1..][i - 1]; }
      }
    }
    if AllParse(terms, parse) {
      forall i | 0 <= i < |terms[1..]| ensures parse(terms[1..][i]).Success? {
        assert terms[1..][i] == terms[i + 1];
      }
    }
  }

  lemma NamesOfCons(terms: seq<string>, parse: TermParser)
    requires |terms| > 0 && AllParse(terms, parse)
    ensures AllParse(terms[1..], parse)
    ensures NamesOf(terms, parse) == {parse(terms[0]).value.0} + NamesOf(terms[1..], parse)
  {
    AllParseCons(terms, parse);
    forall x ensures x in NamesOf(terms, parse) <==> x in {parse(terms[0]).value.0} + NamesOf(terms[1..], parse) {
      if x in NamesOf(terms, parse) {
        var i :| 0 <= i < |terms| && parse(terms[i]).value.0 == x;
        if i > 0 { assert terms[i] == terms[1..][i - 1]; }
      }
      if x in NamesOf(terms[1..], parse) {
        var i :| 0 <= i < |terms[1..]| && parse(terms[1..][i]).value.0 == x;
        assert terms[1..][i] == terms[i + 1];
      }
    }
  }

  /** Index of the first term that does not parse. */
  predicate FirstFailure(terms: seq<string>, i: int, parse: TermParser)
  {
    && 0 <= i < |terms| && parse(terms[i]).Failure?
    && forall j :: 0 <= j < i ==> parse(terms[j]).Success?
  }

  lemma FirstFailureCons(terms: seq<string>, i: int, parse: TermParser)
    requires |terms| > 0 && parse(terms[0]).Success? && FirstFailure(terms[1..], i, parse)
    ensures FirstFailure(terms, i + 1, parse) && terms[i + 1] == terms[1..][i]
  {
    forall j | 0 <= j < i + 1 ensures parse(terms[j]).Success? {
      if j > 0 { assert terms[j] == terms[1..][j - 1]; }
    }
  }

  /** The loop of `parse_side`: `parsed[var] = parsed.get(var, 0.0) + coeff`
      for each term in order; the first malformed term aborts with its error. */
  function Accumulate(terms: seq<string>, acc: Equation, parse: TermParser): (r: Result<Equation, ParseError>)
    ensures r.Success? <==> AllParse(terms, parse)
    ensures r.Success? ==> r.value.Keys == acc.Keys + NamesOf(terms, parse)
    ensures r.Success? ==> forall k :: k in r.value ==> r.value[k] == Get(acc, k) + SumFor(terms, k, parse)
    ensures r.Failure? ==> exists i :: FirstFailure(terms, i, parse) && r.error == parse(terms[i]).error
  {
    if |terms| == 0 then
      assert NamesOf(terms, parse) == {};
      Success(acc)
    else
      AllParseCons(terms, parse);
      match parse(terms[0])
      case Failure(e) =>
        assert FirstFailure(terms, 0, parse);
        Failure(e)
      case Success((name, c)) =>
        var r := Accumulate(terms[1..], acc[name := Get(acc, name) + c], parse);
        if r.Success? then
          NamesOfCons(terms, parse);
          r
        else
          var i :| FirstFailure(terms[1..], i, parse) && r.error == parse(terms[1..][i]).error;
          FirstFailureCons(terms, i, parse);
          r
  }

  /** `parse_side`: the coefficient map of one side of an equation. */
  function ParseSide(side: string): (r: Result<Equation, ParseError>)
    ensures r.Success? <==> AllParse(SideTerms(side), ParseTerm)
    ensures r.Success? ==> r.value.Keys == NamesOf(SideTerms(side), ParseTerm)
    ensures r.Success? ==> forall k :: k in r.value ==> r.value[k] == SumFor(SideTerms(side), k, ParseTerm)
    ensures r.Failure? ==> r.error.InvalidTerm? || r.error.InvalidNumber?
  {
    Accumulate(SideTerms(side), map[], ParseTerm)
  }

  // ---------------------------------------------------------------------
  // parse_linear_equation
  // ---------------------------------------------------------------------

  /** The normalisation loop `left[var] = left.get(var, 0) - val` over the
      right side: every key of either side maps to left minus right. */
  function Combine(left: Equation, right: Equation): (r: Equation)
    ensures r.Keys == left.Keys + right.Keys
    ensures forall k :: k in right ==> r[k] == Get(left, k) - right[k]
    ensures forall k :: k in left && k !in right ==> r[k] == left[k]
  {
    map k | k in left.Keys + right.Keys :: Get(left, k) - Get(right, k)
  }

  function Negate(e: Equation): (r: Equation)
    ensures r.Keys == e.Keys
    ensures forall k :: k in e ==> r[k] == -e[k]
  {
    map k | k in e :: -e[k]
  }

  /** Swapping the sides of an equation negates every coefficient. */
  lemma CombineSwap(left: Equation, right: Equation)
    ensures Combine(right, left) == Negate(Combine(left, right))
  {
  }

  function RemoveSpaces(line: string): string
  {
    Text.Replace(line, " ", "")
  }

  /** Removing spaces deletes every space and nothing else, keeping the
      order: it works piece by piece, and each other character keeps its
      number of occurrences. */
  lemma RemoveSpacesFilter(a: string, b: string)
    ensures ' ' !in RemoveSpaces(a)
    ensures forall c :: c != ' ' ==> Text.Count(RemoveSpaces(a), c) == Text.Count(a, c)
    ensures RemoveSpaces(a + b) == RemoveSpaces(a) + RemoveSpaces(b)
  {
    Text.RemoveCharGone(a, ' ');
    forall c | c != ' ' ensures Text.Count(RemoveSpaces(a), c) == Text.Count(a, c) {
      Text.RemoveCharCount(a, ' ', c);
    }
    Text.RemoveCharAppend(a, b, ' ');
  }

  /** `parse_linear_equation`: spaces are removed, the line must hold exactly
      one `=`, and the result is the map of `left - right`. */
  function ParseEquation(line: string): (r: Result<Equation, ParseError>)
    ensures r == Failure(EqualsCount(RemoveSpaces(line)))
            <==> Text.Count(RemoveSpaces(line), '=') != 1
    ensures r.Failure? ==> !r.error.NoEquations?
    ensures r.Success? ==>
              var parts := Text.Split(RemoveSpaces(line), '=');
              && |parts| == 2
              && ParseSide(parts[0]).Success? && ParseSide(parts[1]).Success?
              && r.value == Combine(ParseSide(parts[0]).value, ParseSide(parts[1]).value)
  {
    var e := RemoveSpaces(line);
    if Text.Count(e, '=') != 1 then Failure(EqualsCount(e))
    else
      var parts := Text.Split(e, '=');
      var left :- ParseSide(parts[0]);
      var right :- ParseSide(parts[1]);
      Success(Combine(left, right))
  }

  /** Spaces never matter: inserting one anywhere leaves the result unchanged. */
  lemma SpacesIgnored(a: string, b: string)
    ensures ParseEquation(a + " " + b) == ParseEquation(a + b)
  {
    assert RemoveSpaces(a + " " + b) == RemoveSpaces(a + b) by {
      Text.RemoveCharAppend(a + " ", b, ' ');
      Text.RemoveCharAppend(a, " ", ' ');
      Text.RemoveCharAppend(a, b, ' ');
      assert Text.Replace(" ", " ", "") == "" by {
        assert " "[..1] == " " && " "[1..] == "";
      }
    }
  }

  /** Writing the two sides the other way round negates every coefficient. */
  lemma SwapSides(l: string, r: string)
    requires '=' !in l && '=' !in r
    requires ParseEquation(l + "=" + r).Success?
    ensures ParseEquation(r + "=" + l) == Success(Negate(ParseEquation(l + "=" + r).value))
  {
    SidesOf(l, r);
    SidesOf(r, l);
    CombineSwap(ParseSide(RemoveSpaces(l)).value, ParseSide(RemoveSpaces(r)).value);
  }

  /** Removing spaces from `l=r` keeps the single `=` between the two sides. */
  lemma SidesOf(l: string, r: string)
    requires '=' !in l && '=' !in r
    ensures Text.Count(RemoveSpaces(l + "=" + r), '=') == 1
    ensures Text.Split(RemoveSpaces(l + "=" + r), '=') == [RemoveSpaces(l), RemoveSpaces(r)]
  {
    var sl, sr := RemoveSpaces(l), RemoveSpaces(r);
    Text.RemoveCharAppend(l + "=", r, ' ');
    Text.RemoveCharAppend(l, "=", ' ');
    Text.ReplaceAbsent("=", " ", "");
    assert RemoveSpaces(l + "=" + r) == sl + "=" + sr;
    assert '=' !in sl by {
      if '=' in sl { Text.RemoveCharSubset(l, ' ', '='); }
    }
    assert '=' !in sr by {
      if '=' in sr { Text.RemoveCharSubset(r, ' ', '='); }
    }
    Text.CountAppend(sl + "=", sr, '=');
    Text.CountAppend(sl, "=", '=');
    assert Text.Join([sl, sr], "=") == sl + "=" + sr;
    Text.SplitJoin([sl, sr], '=');
  }

  /** Dangling signs are dropped: `x+=5` reads as `x - 5 = 0`. */
  lemma DanglingSignAccepted()
    ensures ParseEquation("x+=5") == Success(map["x" := 1.0, "" := -5.0])
  {
    DanglingSignSides("x+=5");
    DanglingSignCombine();
  }

  lemma DanglingSignCombine()
    ensures Combine(map["x" := 1.0], map["" := 5.0]) == map["x" := 1.0, "" := -5.0]
  {
  }

  lemma DanglingSignSides(line: string)
    requires line == "x+=5"
    ensures ParseEquation(line) == Success(Combine(map["x" := 1.0], map["" := 5.0]))
  {
    Text.ReplaceAbsent(line, " ", "");
    DanglingSignSplit(line);
    LoneVariableSide();
    ConstantSide();
    EquationOf(line, "x+", "5");
  }

  lemma DanglingSignSplit(e: string)
    requires e == "x+=5"
    ensures Text.Count(e, '=') == 1 && Text.Split(e, '=') == ["x+", "5"]
  {
    Text.CountAppend("x+", "=5", '=');
    Text.CountAppend("=", "5", '=');
    assert Text.Join(["x+", "5"], "=") == "x+=5";
    Text.SplitJoin(["x+", "5"], '=');
  }

  /** A line whose space-free form splits at its one `=` into two sides that
      parse is the map of left minus right. */
  lemma EquationOf(line: string, l: string, r: string)
    requires Text.Count(RemoveSpaces(line), '=') == 1
    requires Text.Split(RemoveSpaces(line), '=') == [l, r]
    requires ParseSide(l).Success? && ParseSide(r).Success?
    ensures ParseEquation(line) == Success(Combine(ParseSide(l).value, ParseSide(r).value))
  {
  }

  /** A side made of one term is the one-entry map of that term. */
  lemma SingleTermSide(side: string, term: string, name: string, c: real)
    requires SideTerms(side) == [term] && ParseTerm(term) == Success((name, c))
    ensures ParseSide(side) == Success(map[name := c])
  {
    assert Accumulate([term], map[], ParseTerm) == Accumulate([], map[name := 0.0 + c], ParseTerm);
  }

  lemma LoneVariableSide()
    ensures ParseSide("x+") == Success(map["x" := 1.0])
  {
    LoneVariableTerms("x+");
    LoneVariableTerm("x");
    SingleTermSide("x+", "x", "x", 1.0);
  }

  lemma LoneVariableTerms(side: string)
    requires side == "x+"
    ensures SideTerms(side) == ["x"]
  {
    Text.ReplaceAbsent("x+", "--", "+");
    Text.ReplaceAbsent("x+", "-", "+-");
    assert Text.Split("x+", '+') == ["x", ""] by {
      assert Text.Join(["x", ""], "+") == "x+";
      Text.SplitJoin(["x", ""], '+');
    }
  }

  lemma LoneVariableTerm(t: string)
    requires t == "x"
    ensures ParseTerm(t) == Success(("x", 1.0))
  {
    assert SignLen(t) == 0 && NumberEnd(t) == 0 by {
      assert DigitRun(t, 0) == 0;
    }
    assert MatchBody(t) == Some(("", "x")) by {
      assert t[..0] == "" && t[0..] == "x" && WordShaped("x");
    }
    assert MatchTerm(t) == MatchBody(t) by { assert t[|t| - 1] == 'x'; }
    assert NumberShaped("") && Coefficient("") == Success(1.0);
  }

  lemma ConstantSide()
    ensures ParseSide("5") == Success(map["" := 5.0])
  {
    ConstantTerms("5");
    ConstantTerm("5");
    SingleTermSide("5", "5", "", 5.0);
  }

  lemma ConstantTerms(side: string)
    requires side == "5"
    ensures SideTerms(side) == ["5"]
  {
    Text.ReplaceAbsent("5", "--", "+");
    Text.ReplaceAbsent("5", "-", "+-");
    Text.SplitNoSep("5", '+');
  }

  lemma ConstantTerm(t: string)
    requires t == "5"
    ensures ParseTerm(t) == Success(("", 5.0))
  {
    assert t + "" == t && t[0..] == t;
    DigitsTerm(t, "", 0, t);
    assert DigitsValue("5") == 5 by { assert "5"[..0] == ""; }
  }

  /** A term with two decimal points is rejected. */
  lemma TwoDecimalPointsRejected()
    ensures ParseTerm("2.5.3x") == Failure(InvalidTerm("2.5.3x"))
  {
    var t := "2.5.3x";
    assert DigitRun(t, 0) == 1;
    assert DigitRun(t, 2) == 3;
    assert !WordShaped(t[3..]) by { assert t[3..][0] == '.'; }
    RejectedAt(t);
  }

  /** A term with an operator other than a sign is rejected. */
  lemma ProductRejected()
    ensures ParseTerm("x*y") == Failure(InvalidTerm("x*y"))
  {
    var t := "x*y";
    assert DigitRun(t, 0) == 0;
    assert !WordShaped(t[0..]) by { assert t[0..][1] == '*'; }
    RejectedAt(t);
  }

  /** A term without a final newline whose text after the longest numeric
      prefix is not a word does not parse. */
  lemma RejectedAt(t: string)
    requires |t| == 0 || t[|t| - 1] != '\n'
    requires !WordShaped(t[NumberEnd(t)..])
    ensures ParseTerm(t) == Failure(InvalidTerm(t))
  {
  }

  // ---------------------------------------------------------------------
  // Rendering a term and reading it back
  // ---------------------------------------------------------------------

  function DigitChar(d: nat): (c: char)
    requires d < 10
    ensures IsDigit(c) && DigitValue(c) == d
  {
    ('0' as int + d) as char
  }

  /** Decimal digits of `k`, most significant first. */
  function NatToDigits(k: nat): (s: string)
    ensures |s| > 0
    ensures forall i :: 0 <= i < |s| ==> IsDigit(s[i])
    ensures DigitsValue(s) == k
  {
    if k < 10 then [DigitChar(k)]
    else
      var s := NatToDigits(k / 10) + [DigitChar(k % 10)];
      assert s[..|s| - 1] == NatToDigits(k / 10);
      s
  }

  /** An identifier as the equation format allows it after a number. */
  predicate IsName(name: string)
  {
    name == "" || (WordShaped(name) && !IsDigit(name[0]))
  }

  /** Rendering `[-]<k><name>` and parsing it back gives `name` with
      coefficient `k` (negated for the `-` form). */
  lemma TermRoundTrip(k: nat, name: string, negative: bool)
    requires IsName(name)
    ensures var sign := if negative then "-" else "";
            var t := sign + NatToDigits(k) + name;
            ParseTerm(t) == Success((name, if negative then -(k as real) else k as real))
  {
    var sign := if negative then "-" else "";
    var digits := NatToDigits(k);
    SignedDigits(sign, digits);
    DigitsTerm(sign + digits, name, |sign|, digits);
    assert DigitsValue(digits) == k && (|sign| == 1 <==> negative);
  }

  /** A signed run of digits followed by a name reads as that name with the
      run's value as coefficient. */
  lemma DigitsTerm(num: string, name: string, a: nat, digits: string)
    requires a == SignLen(num) && a < |num| && num[a..] == digits
    requires forall i :: a <= i < |num| ==> IsDigit(num[i])
    requires IsDigit(num[|num| - 1]) && (a == 0 || num[0] == '-')
    requires IsName(name)
    ensures ParseTerm(num + name)
         == Success((name, if a == 1 then -(DigitsValue(digits) as real) else DigitsValue(digits) as real))
  {
    NoTrailingNewline(num, name);
    GreedyNumber(num, name, a);
    NumberValue(num, a, digits);
    TermOf(num + name, num, name);
  }

  /** An optional minus followed by decimal digits: the sign is the only
      non-digit, and the number ends in a digit. */
  lemma SignedDigits(sign: string, digits: string)
    requires sign == "" || sign == "-"
    requires |digits| > 0 && forall i :: 0 <= i < |digits| ==> IsDigit(digits[i])
    ensures var num := sign + digits;
            && SignLen(num) == |sign| && |sign| < |num| && num[|sign|..] == digits
            && (forall i :: |sign| <= i < |num| ==> IsDigit(num[i]))
            && IsDigit(num[|num| - 1])
            && (|sign| == 0 || num[0] == '-')
  {
    var num := sign + digits;
    assert num[0] == (if sign == "-" then '-' else digits[0]);
    assert forall i :: |sign| <= i < |num| ==> num[i] == digits[i - |sign|];
  }

  lemma TermOf(t: string, num: string, name: string)
    requires MatchTerm(t) == Some((num, name)) && NumberShaped(num) && Coefficient(num).Success?
    ensures ParseTerm(t) == Success((name, Coefficient(num).value))
  {
  }

  lemma NoTrailingNewline(num: string, name: string)
    requires |num| > 0 && IsDigit(num[|num| - 1]) && IsName(name)
    ensures MatchTerm(num + name) == MatchBody(num + name)
  {
    var t := num + name;
    if |name| > 0 { assert t[|t| - 1] == name[|name| - 1]; }
    else { assert t[|t| - 1] == num[|num| - 1]; }
  }

  /** A number followed by a name that does not start with a digit splits
      exactly between the two. */
  lemma GreedyNumber(num: string, name: string, a: nat)
    requires a == SignLen(num) && a < |num|
    requires forall i :: a <= i < |num| ==> IsDigit(num[i])
    requires IsName(name)
    ensures MatchBody(num + name) == Some((num, name))
  {
    var t := num + name;
    assert t[..|num|] == num && t[|num|..] == name;
    assert Splits(t, |num|);
    MatchBodyGreedy(t);
    var m := MatchBody(t);
    var (n, v) := m.value;
    assert n == t[..|n|];
  }

  lemma NumberValue(num: string, a: nat, digits: string)
    requires a == SignLen(num) && a < |num| && num[a..] == digits
    requires forall i :: a <= i < |num| ==> IsDigit(num[i])
    requires a == 0 || num[0] == '-'
    ensures NumberShaped(num)
    ensures Coefficient(num) == Success(if a == 1 then -(DigitsValue(digits) as real) else DigitsValue(digits) as real)
  {
    assert HasDigit(num) by { assert IsDigit(num[a]); }
    DotFree(num, a);
    assert num[a..|num|] == digits;
  }

  lemma {:induction false} DotFree(s: string, i: nat)
    requires i <= |s|
    requires forall k :: i <= k < |s| ==> IsDigit(s[k])
    ensures DotIndex(s, i) == |s|
    decreases |s| - i
  {
    if i < |s| {
      DotFree(s, i + 1);
    }
  }

  /** The value of `[-]<whole>.<frac>`: the whole digits plus the fraction
      digits over the matching power of ten. */
  function DecimalOf(negative: bool, whole: string, frac: string): real
  {
    var v := DigitsValue(whole) as real + DigitsValue(frac) as real / Pow10(|frac|) as real;
    if negative then -v else v
  }

  predicate AllDigits(s: string)
  {
    forall i :: 0 <= i < |s| ==> IsDigit(s[i])
  }

  /** A number with a decimal point, `[+-]<whole>.<frac>` with at least one
      digit on either side, reads as the whole digits plus the fraction
      digits scaled by `10^|frac|`, negated for `-`. */
  lemma DecimalCoefficient(sign: string, whole: string, frac: string)
    requires sign == "" || sign == "+" || sign == "-"
    requires AllDigits(whole) && AllDigits(frac) && |whole| + |frac| > 0
    ensures var num := sign + whole + "." + frac;
            && NumberShaped(num)
            && Coefficient(num) == Success(DecimalOf(sign == "-", whole, frac))
  {
    var num := sign + whole + "." + frac;
    DecimalLayout(sign, whole, frac, num);
    DecimalNumber(num, |sign|, |sign| + |whole|);
  }

  /** Where the parts of `sign + whole + "." + frac` sit. */
  lemma DecimalLayout(sign: string, whole: string, frac: string, num: string)
    requires sign == "" || sign == "+" || sign == "-"
    requires AllDigits(whole) && AllDigits(frac) && |whole| + |frac| > 0
    requires num == sign + whole + "." + frac
    ensures var d := |sign| + |whole|;
            && |num| == d + 1 + |frac| && |sign| + 1 < |num|
            && SignLen(num) == |sign| && num[d] == '.'
            && num[|sign|..d] == whole && num[d + 1..] == frac
            && (forall i :: |sign| <= i < |num| && i != d ==> IsDigit(num[i]))
            && (sign == "-" <==> |sign| == 1 && num[0] == '-')
  {
    var a := |sign|;
    var d := a + |whole|;
    assert num[d] == '.';
    assert forall i :: a <= i < d ==> num[i] == whole[i - a];
    assert forall i :: d < i < |num| ==> num[i] == frac[i - d - 1];
    if a == 1 { assert num[0] == sign[0]; }
    else if |whole| > 0 { assert num[0] == whole[0]; }
    else { assert num[0] == '.'; }
    assert num[a..d] == whole && num[d + 1..] == frac;
  }

  /** A numeric group whose only non-digit after the sign is one decimal
      point at `d`, with a digit somewhere, reads as its two digit runs. */
  lemma DecimalNumber(num: string, a: nat, d: nat)
    requires a == SignLen(num) && a <= d < |num| && a + 1 < |num| && num[d] == '.'
    requires forall i :: a <= i < |num| && i != d ==> IsDigit(num[i])
    ensures NumberShaped(num)
    ensures Coefficient(num) == Success(DecimalOf(a == 1 && num[0] == '-', num[a..d], num[d + 1..]))
  {
    assert HasDigit(num) by {
      if d > a { assert IsDigit(num[a]); } else { assert IsDigit(num[d + 1]); }
    }
    DotAt(num, a, d);
    assert |num[d + 1..]| == |num| - d - 1;
    assert num != "" && num != "+" && num != "-" by { assert |num| > 1; }
  }

  /** `[+-]<whole>.<frac>` followed by a name that does not start with a
      digit parses back to that name and the decimal's value. */
  lemma DecimalTermRoundTrip(sign: string, whole: string, frac: string, name: string)
    requires sign == "" || sign == "+" || sign == "-"
    requires AllDigits(whole) && AllDigits(frac) && |whole| + |frac| > 0
    requires IsName(name)
    ensures ParseTerm(sign + whole + "." + frac + name) == Success((name, DecimalOf(sign == "-", whole, frac)))
  {
    var num := sign + whole + "." + frac;
    DecimalCoefficient(sign, whole, frac);
    DecimalLayout(sign, whole, frac, num);
    DecimalMatch(num, name, |sign|, |sign| + |whole|);
    TermOf(num + name, num, name);
  }

  /** A decimal followed by a name that does not start with a digit splits
      exactly between the two. */
  lemma DecimalMatch(num: string, name: string, a: nat, d: nat)
    requires a == SignLen(num) && a <= d < |num| && num[d] == '.'
    requires forall i :: a <= i < |num| && i != d ==> IsDigit(num[i])
    requires IsName(name)
    ensures MatchTerm(num + name) == Some((num, name))
  {
    var t := num + name;
    assert t[..|num|] == num && t[|num|..] == name;
    assert forall i :: 0 <= i < |num| ==> t[i] == num[i];
    assert SignLen(t) == a by { assert t[0] == num[0]; }
    DigitRunEnd(t, a, d);
    if |name| > 0 {
      assert t[|num|] == name[0];
    }
    DigitRunEnd(t, d + 1, |num|);
    assert t[|t| - 1] != '\n' by {
      if |name| > 0 { assert t[|t| - 1] == name[|name| - 1]; }
      else { assert t[|t| - 1] == num[|num| - 1]; }
    }
  }

  /** `float("2.5")` is 2.5. */
  lemma DecimalWithBothParts()
    ensures NumberShaped("2.5") && Coefficient("2.5") == Success(2.5)
  {
    DecimalCoefficient("", "2", "5");
    assert "" + "2" + "." + "5" == "2.5";
    assert DigitsValue("2") == 2 && DigitsValue("5") == 5 && Pow10(1) == 10;
  }

  /** `float("-.5")` is -0.5: the whole part may be empty. */
  lemma DecimalWithoutWholePart()
    ensures NumberShaped("-.5") && Coefficient("-.5") == Success(-0.5)
  {
    DecimalCoefficient("-", "", "5");
    assert "-" + "" + "." + "5" == "-.5";
    assert DigitsValue("") == 0 && DigitsValue("5") == 5 && Pow10(1) == 10;
  }

  /** `float("3.")` is 3: the fraction may be empty. */
  lemma DecimalWithoutFraction()
    ensures NumberShaped("3.") && Coefficient("3.") == Success(3.0)
  {
    DecimalCoefficient("", "3", "");
    assert "" + "3" + "." + "" == "3.";
    assert DigitsValue("3") == 3 && DigitsValue("") == 0 && Pow10(0) == 1;
  }

  /** `DigitRun` stops at the first non-digit. */
  lemma {:induction false} DigitRunEnd(t: string, i: nat, j: nat)
    requires i <= j <= |t|
    requires forall k :: i <= k < j ==> IsDigit(t[k])
    requires j == |t| || !IsDigit(t[j])
    ensures DigitRun(t, i) == j
    decreases j - i
  {
    if i < j {
      DigitRunEnd(t, i + 1, j);
    }
  }

  /** `DotIndex` stops at the first decimal point. */
  lemma {:induction false} DotAt(s: string, i: nat, j: nat)
    requires i <= j < |s| && s[j] == '.'
    requires forall k :: i <= k < j ==> IsDigit(s[k])
    ensures DotIndex(s, i) == j
    decreases j - i
  {
    if i < j {
      DotAt(s, i + 1, j);
    }
  }

  // ---------------------------------------------------------------------
  // parse_linear_equations
  // ---------------------------------------------------------------------

  /** `[line for line in lines if line.strip()]`. */
  function NonBlank(lines: seq<string>): (r: seq<string>)
    ensures forall i :: 0 <= i < |r| ==> !Text.IsBlank(r[i]) && r[i] in lines
    ensures (forall i :: 0 <= i < |lines| ==> Text.IsBlank(lines[i])) ==> r == []
  {
    if |lines| == 0 then []
    else if Text.IsBlank(lines[0]) then NonBlank(lines[1..])
    else [lines[0]] + NonBlank(lines[1..])
  }

  /** The filter works line by line and keeps the order: a single line
      survives exactly when it is not blank, and the result for a
      concatenation is the concatenation of the results. */
  lemma {:induction false} NonBlankAppend(a: seq<string>, b: seq<string>)
    ensures forall l :: NonBlank([l]) == if Text.IsBlank(l) then [] else [l]
    ensures NonBlank(a + b) == NonBlank(a) + NonBlank(b)
    decreases |a|
  {
    forall l ensures NonBlank([l]) == if Text.IsBlank(l) then [] else [l] {
      assert [l][1..] == [];
    }
    if |a| == 0 {
      assert a + b == b;
    } else {
      assert (a + b)[0] == a[0] && (a + b)[1..] == a[1..] + b;
      NonBlankAppend(a[1..], b);
    }
  }

  /** The non-blank lines of the input, in order. */
  function EquationLines(text: string): seq<string>
  {
    NonBlank(Text.Split(text, '\n'))
  }

  /** The comprehension `[parse(line) for line in lines]`: every line in
      order; the first line that raises aborts with its error. */
  function ParseAll(lines: seq<string>, parse: string -> Result<Equation, ParseError>)
    : (r: Result<seq<Equation>, ParseError>)
    ensures r.Success? <==> forall i :: 0 <= i < |lines| ==> parse(lines[i]).Success?
    ensures r.Success? ==> |r.value| == |lines|
    ensures r.Success? ==> forall i :: 0 <= i < |lines| ==> parse(lines[i]) == Success(r.value[i])
    ensures r.Failure? ==>
              exists i :: 0 <= i < |lines| && parse(lines[i]) == Failure(r.error)
                          && forall j :: 0 <= j < i ==> parse(lines[j]).Success?
  {
    if |lines| == 0 then Success([])
    else
      var first := parse(lines[0]);
      if first.Failure? then
        Failure(first.error)
      else
        var rest := ParseAll(lines[1..], parse);
        if rest.Failure? then
          var i :| 0 <= i < |lines[1..]| && parse(lines[1..][i]) == Failure(rest.error)
                   && forall j :: 0 <= j < i ==> parse(lines[1..][j]).Success?;
          assert lines[i + 1] == lines[1..][i];
          assert forall j :: 0 < j < i + 1 ==> lines[j] == lines[1..][j - 1];
          Failure(rest.error)
        else
          var r := [first.value] + rest.value;
          forall i | 0 <= i < |lines|
            ensures parse(lines[i]) == Success(r[i])
          {
            if i > 0 { assert lines[i] == lines[1..][i - 1]; }
          }
          Success(r)
  }

  /** When two lines both raise, the comprehension stops at the first one:
      its error is the result, whatever the later line's error is. */
  lemma FirstFailingLineWins(a: string, b: string, parse: string -> Result<Equation, ParseError>)
    requires parse(a).Failure? && parse(b).Failure? && parse(a).error != parse(b).error
    ensures ParseAll([a, b], parse) == Failure(parse(a).error)
  {
  }

  /** `parse_linear_equations`: only the empty text is an error of its own;
      otherwise one equation per non-blank line, in input order. */
  function ParseEquations(text: string): (r: Result<seq<Equation>, ParseError>)
    ensures r == Failure(NoEquations) <==> text == ""
    ensures text != "" ==> r == ParseAll(EquationLines(text), ParseEquation)
    ensures r.Success? ==> |r.value| == |EquationLines(text)|
    ensures r.Success? ==> forall i :: 0 <= i < |r.value| ==>
              ParseEquation(EquationLines(text)[i]) == Success(r.value[i])
  {
    if text == "" then Failure(NoEquations)
    else
      var r := ParseAll(EquationLines(text), ParseEquation);
      assert r.Failure? ==> r.error != NoEquations by {
        if r.Failure? {
          var i :| 0 <= i < |EquationLines(text)| && ParseEquation(EquationLines(text)[i]) == Failure(r.error);
        }
      }
      r
  }

  /** Whitespace-only input is not an error: it yields no equations. */
  lemma BlankInputGivesNoEquations(text: string)
    requires text != "" && Text.IsBlank(text)
    ensures ParseEquations(text) == Success([])
  {
    var frags := Text.Split(text, '\n');
    forall i | 0 <= i < |frags| ensures Text.IsBlank(frags[i]) {
      forall j | 0 <= j < |frags[i]| ensures Text.IsSpace(frags[i][j]) {
        Text.SplitChars(text, '\n', i, frags[i][j]);
        var k :| 0 <= k < |text| && text[k] == frags[i][j];
      }
    }
  }
}

=== FILE: layout.dfy ===
/** Row-major layout shared by the Python front end and the C back ends:
    `_flatten_matrix`, `_deflaten_matrix` and the C `at` address computation. */
module Layout {

  /** Every row of `m` has exactly `w` entries. */
  predicate Uniform<T>(m: seq<seq<T>>, w: int)
  {
    forall i :: 0 <= i < |m| ==> |m[i]| == w
  }

  /** `_flatten_matrix`: the rows concatenated in order. */
  function Flatten<T>(m: seq<seq<T>>): seq<T>
  {
    if |m| == 0 then [] else m[0] + Flatten(m[1..])
  }

  /** `_deflaten_matrix(data, w)`: consecutive slices `data[i:i+w]` for
      `i` in `range(0, len(data), w)`; the last slice may be shorter. */
  function Deflatten<T>(data: seq<T>, w: int): (m: seq<seq<T>>)
    requires w >= 1
    ensures forall i :: 0 <= i < |m| ==> 1 <= |m[i]| <= w
    ensures |data| == 0 <==> |m| == 0
    decreases |data|
  {
    if |data| == 0 then []
    else if |data| <= w then [data]
    else [data[..w]] + Deflatten(data[w..], w)
  }

  /** C `at(matrix, sizeX, row, col)`: the offset `sizeX * row + col`. */
  function At(sizeX: int, row: int, col: int): int
  {
    sizeX * row + col
  }

  /** `at` stays inside a `rows` by `cols` buffer for in-range coordinates. */
  lemma AtInBounds(rows: int, cols: int, row: int, col: int)
    requires 0 <= row < rows && 0 <= col < cols
    ensures 0 <= At(cols, row, col) < rows * cols
  {
    assert cols * row <= cols * (rows - 1) by {
      MulMonotone(cols, row, rows - 1);
    }
    assert cols * (rows - 1) + cols == rows * cols;
  }

  lemma MulMonotone(a: int, x: int, y: int)
    requires a >= 0 && x <= y
    ensures a * x <= a * y
  {
    assert a * y - a * x == a * (y - x);
  }

  /** Distinct in-range coordinates have distinct addresses. */
  lemma AtInjective(cols: int, r1: int, c1: int, r2: int, c2: int)
    requires 0 <= c1 < cols && 0 <= c2 < cols && 0 <= r1 && 0 <= r2
    ensures At(cols, r1, c1) == At(cols, r2, c2) ==> r1 == r2 && c1 == c2
  {
    if r1 < r2 {
      MulMonotone(cols, r1 + 1, r2);
      assert cols * (r1 + 1) == cols * r1 + cols;
    } else if r2 < r1 {
      MulMonotone(cols, r2 + 1, r1);
      assert cols * (r2 + 1) == cols * r2 + cols;
    }
  }

  /** Flattening rows of width `w` gives `|m| * w` entries. */
  lemma {:induction false} FlattenLength<T>(m: seq<seq<T>>, w: int)
    requires Uniform(m, w)
    ensures |Flatten(m)| == |m| * w
  {
    if |m| > 0 {
      FlattenLength(m[1..], w);
      assert |m| * w == w + (|m| - 1) * w;
    }
  }

  /** In the flattened buffer, offset `at(w, r, c)` holds `m[r][c]`. */
  lemma {:induction false} FlattenAt<T>(m: seq<seq<T>>, w: int, r: int, c: int)
    requires Uniform(m, w)
    requires 0 <= r < |m| && 0 <= c < w
    ensures At(w, r, c) < |Flatten(m)|
    ensures Flatten(m)[At(w, r, c)] == m[r][c]
  {
    FlattenLength(m, w);
    AtInBounds(|m|, w, r, c);
    if r > 0 {
      FlattenAt(m[1..], w, r - 1, c);
      assert At(w, r, c) == w + At(w, r - 1, c);
    }
  }

  /** `_deflaten_matrix` undoes `_flatten_matrix` for rows of one width `w >= 1`. */
  lemma {:induction false} DeflattenFlatten<T>(m: seq<seq<T>>, w: int)
    requires w >= 1 && Uniform(m, w)
    ensures Deflatten(Flatten(m), w) == m
  {
    if |m| > 0 {
      var rest := Flatten(m[1..]);
      FlattenLength(m[1..], w);
      DeflattenFlatten(m[1..], w);
      var d := m[0] + rest;
      assert d[..w] == m[0];
      assert d[w..] == rest;
      if |rest| == 0 {
        assert |m[1..]| == 0;
        assert d == m[0];
        assert m == [m[0]];
      } else {
        assert m == [m[0]] + m[1..];
      }
    }
  }

  /** `_flatten_matrix` undoes `_deflaten_matrix` for every buffer. */
  lemma {:induction false} FlattenDeflatten<T>(data: seq<T>, w: int)
    requires w >= 1
    ensures Flatten(Deflatten(data, w)) == data
    decreases |data|
  {
    if |data| > w {
      FlattenDeflatten(data[w..], w);
      var m := Deflatten(data, w);
      assert m[1..] == Deflatten(data[w..], w);
      assert data[..w] + data[w..] == data;
    } else if |data| > 0 {
      assert Flatten([data]) == data + Flatten<T>([]);
    }
  }

  /** A buffer of `rows * w` entries de-flattens into `rows` rows of width `w`. */
  lemma {:induction false} DeflattenShape<T>(data: seq<T>, w: int, rows: nat)
    requires w >= 1 && |data| == rows * w
    ensures |Deflatten(data, w)| == rows
    ensures Uniform(Deflatten(data, w), w)
    decreases rows
  {
    if rows > 1 {
      assert |data[w..]| == (rows - 1) * w;
      DeflattenShape(data[w..], w, rows - 1);
    } else if rows == 1 {
      assert |data| == w;
    }
  }
}

=== FILE: libc_solver.dfy ===
/** Libc.c: the four-argument `double` solver with a single-threaded path
    for one thread and `eliminate_multi_thread` otherwise, workers that skip
    zero factors, the right-hand-side clean-up, and a classifier that treats
    unsolvable systems with more variables than rows as infinite. */
module LibcSolver {
  import Layout
  import Partition
  import opened Matrix

  /** What `solutions_in_system` of Libc.c yields: a status, or a read past
      the last row of the buffer. */
  datatype Outcome = Status(code: int) | ReadsPastEnd

  /** `solutions_in_system` as written: the scan over the first `cols - 1`
      rows does not stop at the last row that exists. */
  method SolutionsInSystemAsWritten(m: Mat, cols: nat) returns (r: Outcome)
    requires Layout.Uniform(m, cols) && cols >= 1
    ensures !Solvable(m, cols) ==> r == Status(if cols - 1 > |m| then 2 else 0)
    ensures Solvable(m, cols) ==>
              (r == Status(2) <==> exists i :: 0 <= i < cols - 1 && i < |m| && AllZero(m[i], cols))
    ensures Solvable(m, cols) ==>
              (r == ReadsPastEnd <==> |m| < cols - 1 && forall i :: 0 <= i < |m| ==> !AllZero(m[i], cols))
    ensures Solvable(m, cols) ==>
              (r == Status(1) <==> |m| >= cols - 1 && forall i :: 0 <= i < cols - 1 ==> !AllZero(m[i], cols))
  {
    var vars := cols - 1;
    var ok := HasSolutions(m, cols);
    if !ok {
      return Status(if vars > |m| then 2 else 0);
    }
    var row := 0;
    while row < vars
      invariant 0 <= row <= vars && row <= |m|
      invariant forall i :: 0 <= i < row ==> !AllZero(m[i], cols)
    {
      if row == |m| {
        return ReadsPastEnd;
      }
      var zeros := RowContainsOnlyZeros(m, cols, row);
      if zeros {
        return Status(2);
      }
      row := row + 1;
    }
    return Status(1);
  }

  /** `solutions_in_system` with the scan stopped at the last row: a
      missing row counts as a zero row, so a solvable system with fewer
      rows than variables is infinite. It never reads past the buffer. */
  method SolutionsInSystem(m: Mat, cols: nat) returns (status: int)
    requires Layout.Uniform(m, cols) && cols >= 1
    ensures status == 0 || status == 1 || status == 2
    ensures !Solvable(m, cols) ==> status == (if cols - 1 > |m| then 2 else 0)
    ensures Solvable(m, cols) ==>
              (status == 2 <==> |m| < cols - 1 || exists i :: 0 <= i < cols - 1 && i < |m| && AllZero(m[i], cols))
    ensures Solvable(m, cols) ==>
              (status == 1 <==> |m| >= cols - 1 && forall i :: 0 <= i < cols - 1 ==> !AllZero(m[i], cols))
    ensures Solvable(m, cols) ==> status != 0
  {
    var vars := cols - 1;
    var ok := HasSolutions(m, cols);
    if !ok {
      return if vars > |m| then 2 else 0;
    }
    var row := 0;
    while row < vars
      invariant 0 <= row <= vars && row <= |m|
      invariant forall i :: 0 <= i < row ==> !AllZero(m[i], cols)
    {
      if row == |m| {
        return 2;
      }
      var zeros := RowContainsOnlyZeros(m, cols, row);
      if zeros {
        return 2;
      }
      row := row + 1;
    }
    return 1;
  }

  /** "x + 0y = 1": the row `[1, 0, 1]` is solvable and not all zero, and
      with one row and two variables the original scan goes on to row 1,
      which does not exist. The iteration and the clean-up leave it as is. */
  lemma UnderdeterminedReadsPastEnd(m: Mat)
    requires m == [[1.0, 0.0, 1.0]]
    ensures Reduce(m, 3, 1, true) == m
    ensures CleanRhs(m, 3) == m
    ensures Solvable(m, 3) && |m| < 3 - 1 && forall i :: 0 <= i < |m| ==> !AllZero(m[i], 3)
  {
    assert Reduce(m, 3, 0, true) == m;
    assert HasPivot(m, 3, 0) by { assert !IsZero(m[0][0]); }
    var nrm := Normalized(m, 3, 0);
    assert nrm[0] == m[0] by {
      assert forall c :: 0 <= c < 3 ==> nrm[0][c] * 1.0 == m[0][c];
    }
    assert nrm == m;
    assert Eliminated(m, 3, 0, 0, 1, true) == m;
    assert !AllZero(m[0], 3) by { assert !IsZero(m[0][0]); }
    assert AtMostOneNonZero(m[0], 2) && !Inconsistent(m[0], 2);
  }

  /** `x = 1`: the matrix `[[1, 1]]` is already reduced and clean, it is
      solvable, and its one row is not zero, so the corrected classifier
      reports exactly one solution. */
  lemma OneEquationOneUnknown(m: Mat)
    requires m == [[1.0, 1.0]]
    ensures Reduce(m, 2, 1, true) == m
    ensures CleanRhs(m, 2) == m
    ensures Solvable(m, 2) && |m| >= 2 - 1 && forall i :: 0 <= i < 2 - 1 ==> !AllZero(m[i], 2)
  {
    assert Reduce(m, 2, 0, true) == m;
    assert HasPivot(m, 2, 0) by { assert !IsZero(m[0][0]); }
    var nrm := Normalized(m, 2, 0);
    assert nrm[0] == m[0] by {
      assert forall c :: 0 <= c < 2 ==> nrm[0][c] * 1.0 == m[0][c];
    }
    assert nrm == m;
    assert Eliminated(m, 2, 0, 0, 1, true) == m;
    assert !AllZero(m[0], 2) by { assert !IsZero(m[0][0]); }
    assert AtMostOneNonZero(m[0], 1) && !Inconsistent(m[0], 1);
  }

  /** One iteration of the outer loop of `solve_linear_system`: the
      single-threaded elimination for one thread, the partitioned one
      otherwise. */
  method Iteration(m: Mat, cols: nat, row: nat, numThreads: int) returns (n: Mat)
    requires Layout.Uniform(m, cols) && row < |m| && row < cols && numThreads >= 1
    ensures n == PivotStep(m, cols, row, true)
  {
    var withPivot, ok := PreparePivot(m, cols, row);
    n := m;
    if ok {
      var normalized := NormalizeRow(withPivot, cols, row);
      if numThreads == 1 {
        n := EliminateSingleThread(normalized, cols, row, true);
      } else {
        n := Partition.EliminateMultiThread(normalized, cols, row, numThreads, true);
      }
    }
  }

  /** The first `k` iterations of the outer loop. */
  method Iterations(m: Mat, cols: nat, k: nat, numThreads: int) returns (reduced: Mat)
    requires Layout.Uniform(m, cols) && k <= |m| && k <= cols && numThreads >= 1
    ensures reduced == Reduce(m, cols, k, true)
    ensures |reduced| == |m| && Layout.Uniform(reduced, cols)
    ensures forall j :: 0 <= j < k ==> ColumnDone(reduced, cols, j, true)
  {
    reduced := m;
    var row := 0;
    while row < k
      invariant 0 <= row <= k
      invariant Progress(m, cols, row, true, reduced)
    {
      AdvanceDone(m, cols, row, true, reduced);
      reduced := Iteration(reduced, cols, row, numThreads);
      row := row + 1;
    }
  }

  /** The matrix part of `solve_linear_system(matrix, rows, cols,
      num_threads)`: `min(cols - 1, rows)` iterations with the zero-factor
      skip, then the right-hand-side clean-up. The thread count does not
      affect the result. */
  method ReduceAndClean(m: Mat, cols: nat, numThreads: int) returns (out: Mat)
    requires Layout.Uniform(m, cols) && cols >= 1 && numThreads >= 1
    ensures var k := if cols - 1 < |m| then cols - 1 else |m|;
            out == CleanRhs(Reduce(m, cols, k, true), cols)
    ensures |out| == |m| && Layout.Uniform(out, cols)
    ensures forall i :: 0 <= i < |m| ==> out[i][cols - 1] == 0.0 || !IsZero(out[i][cols - 1])
    ensures var k := if cols - 1 < |m| then cols - 1 else |m|;
            forall j :: 0 <= j < k ==> ColumnDone(out, cols, j, true)
  {
    var k := if cols - 1 < |m| then cols - 1 else |m|;
    var reduced := Iterations(m, cols, k, numThreads);
    out := RemoveMinusZeros(reduced, cols);
    CleanRhsKeepsColumnsDone(reduced, cols, k, true);
  }

  /** `solve_linear_system(matrix, rows, cols, num_threads)` as written:
      the reduction, then the classification whose scan may run past the
      last row. */
  method SolveLinearSystemAsWritten(m: Mat, cols: nat, numThreads: int) returns (r: Outcome, out: Mat)
    requires Layout.Uniform(m, cols) && cols >= 1 && numThreads >= 1
    ensures var k := if cols - 1 < |m| then cols - 1 else |m|;
            out == CleanRhs(Reduce(m, cols, k, true), cols)
    ensures |out| == |m| && Layout.Uniform(out, cols)
    ensures !Solvable(out, cols) ==> r == Status(if cols - 1 > |m| then 2 else 0)
    ensures Solvable(out, cols) ==>
              (r == Status(2) <==> exists i :: 0 <= i < cols - 1 && i < |m| && AllZero(out[i], cols))
    ensures Solvable(out, cols) ==>
              (r == ReadsPastEnd <==> |m| < cols - 1 && forall i :: 0 <= i < |m| ==> !AllZero(out[i], cols))
    ensures Solvable(out, cols) ==>
              (r == Status(1) <==> |m| >= cols - 1 && forall i :: 0 <= i < cols - 1 ==> !AllZero(out[i], cols))
  {
    out := ReduceAndClean(m, cols, numThreads);
    r := SolutionsInSystemAsWritten(out, cols);
  }

  /** `solve_linear_system(matrix, rows, cols, num_threads)` with the
      classification's scan stopped at the last row: the reduction, then
      the corrected classification. */
  method SolveLinearSystem(m: Mat, cols: nat, numThreads: int) returns (status: int, out: Mat)
    requires Layout.Uniform(m, cols) && cols >= 1 && numThreads >= 1
    ensures var k := if cols - 1 < |m| then cols - 1 else |m|;
            out == CleanRhs(Reduce(m, cols, k, true), cols)
    ensures |out| == |m| && Layout.Uniform(out, cols)
    ensures forall i :: 0 <= i < |m| ==> out[i][cols - 1] == 0.0 || !IsZero(out[i][cols - 1])
    ensures var k := if cols - 1 < |m| then cols - 1 else |m|;
            forall j :: 0 <= j < k ==> ColumnDone(out, cols, j, true)
    ensures status == 0 || status == 1 || status == 2
    ensures !Solvable(out, cols) ==> status == (if cols - 1 > |m| then 2 else 0)
    ensures Solvable(out, cols) ==>
              (status == 2 <==> |m| < cols - 1 || exists i :: 0 <= i < cols - 1 && i < |m| && AllZero(out[i], cols))
    ensures Solvable(out, cols) ==>
              (status == 1 <==> |m| >= cols - 1 && forall i :: 0 <= i < cols - 1 ==> !AllZero(out[i], cols))
    ensures Solvable(out, cols) ==> status != 0
  {
    out := ReduceAndClean(m, cols, numThreads);
    status := SolutionsInSystem(out, cols);
  }

}

=== FILE: lin_sys_solver.dfy ===
/** LinSysSolver.c: the three-argument, single-threaded `double` solver the
    Python front end loads. Its outer loop runs once per variable whatever
    the number of rows, and there is no right-hand-side clean-up. */
module LinSysSolver {
  import Layout
  import opened Matrix

  /** `solutions_in_system`: 0 when `has_solutions` rejects the reduced
      matrix, otherwise 2 when one of the first `cols - 1` rows is entirely
      zero, otherwise 1. */
  method SolutionsInSystem(m: Mat, cols: nat) returns (status: int)
    requires Layout.Uniform(m, cols) && cols >= 1 && |m| >= cols - 1
    ensures status == 0 || status == 1 || status == 2
    ensures status == 0 <==> !Solvable(m, cols)
    ensures status == 2 <==> Solvable(m, cols) && exists i :: 0 <= i < cols - 1 && AllZero(m[i], cols)
  {
    var ok := HasSolutions(m, cols);
    if !ok {
      return 0;
    }
    var row := 0;
    while row < cols - 1
      invariant 0 <= row <= cols - 1
      invariant forall i :: 0 <= i < row ==> !AllZero(m[i], cols)
    {
      var zeros := RowContainsOnlyZeros(m, cols, row);
      if zeros {
        return 2;
      }
      row := row + 1;
    }
    return 1;
  }

  /** One iteration of the outer loop of `solve_linear_system`. */
  method Iteration(m: Mat, cols: nat, row: nat) returns (n: Mat)
    requires Layout.Uniform(m, cols) && row < |m| && row < cols
    ensures n == PivotStep(m, cols, row, true)
  {
    var withPivot, ok := PreparePivot(m, cols, row);
    n := m;
    if ok {
      var normalized := NormalizeRow(withPivot, cols, row);
      n := EliminateSingleThread(normalized, cols, row, true);
    }
  }

  /** The first `k` iterations of the outer loop. */
  method Iterations(m: Mat, cols: nat, k: nat) returns (reduced: Mat)
    requires Layout.Uniform(m, cols) && k <= |m| && k <= cols
    ensures reduced == Reduce(m, cols, k, true)
    ensures |reduced| == |m| && Layout.Uniform(reduced, cols)
    ensures forall j :: 0 <= j < k ==> ColumnDone(reduced, cols, j, true)
  {
    reduced := m;
    var row := 0;
    while row < k
      invariant 0 <= row <= k
      invariant Progress(m, cols, row, true, reduced)
    {
      AdvanceDone(m, cols, row, true, reduced);
      reduced := Iteration(reduced, cols, row);
      row := row + 1;
    }
  }

  /** `solve_linear_system(matrix, rows, cols)`: `cols - 1` Gauss–Jordan
      iterations with the zero-factor skip, then the classification. The
      code reads row `cols - 2` in its last iteration, hence the demand for
      at least `cols - 1` rows. */
  method SolveLinearSystem(m: Mat, cols: nat) returns (status: int, out: Mat)
    requires Layout.Uniform(m, cols) && cols >= 1 && |m| >= cols - 1
    ensures out == Reduce(m, cols, cols - 1, true)
    ensures |out| == |m| && Layout.Uniform(out, cols)
    ensures forall j :: 0 <= j < cols - 1 ==> ColumnDone(out, cols, j, true)
    ensures status == 0 || status == 1 || status == 2
    ensures status == 0 <==> !Solvable(out, cols)
    ensures status == 2 <==> Solvable(out, cols) && exists i :: 0 <= i < cols - 1 && AllZero(out[i], cols)
  {
    var k := cols - 1;
    out := Iterations(m, cols, k);
    status := SolutionsInSystem(out, cols);
  }

  /** "x + y = 2, 2x + 2y = 4" has infinitely many solutions, yet its
      reduced form keeps two non-zero coefficients in the first row, which
      `has_solutions` rejects, so `solve_linear_system` reports 0. */
  lemma DependentSystemReportedUnsolvable(m: Mat)
    requires m == [[1.0, 1.0, 2.0], [2.0, 2.0, 4.0]]
    ensures Reduce(m, 3, 2, true) == [[1.0, 1.0, 2.0], [0.0, 0.0, 0.0]]
    ensures !Solvable(Reduce(m, 3, 2, true), 3)
  {
    var first := Reduce(m, 3, 1, true);
    FirstIteration(m, first);
    SecondIteration(first);
    var reduced := [[1.0, 1.0, 2.0], [0.0, 0.0, 0.0]];
    assert !AtMostOneNonZero(reduced[0], 2) by {
      assert !IsZero(reduced[0][0]) && !IsZero(reduced[0][1]);
    }
  }

  lemma FirstIteration(m: Mat, first: Mat)
    requires m == [[1.0, 1.0, 2.0], [2.0, 2.0, 4.0]]
    requires first == Reduce(m, 3, 1, true)
    ensures first == [[1.0, 1.0, 2.0], [0.0, 0.0, 0.0]]
  {
    assert Reduce(m, 3, 0, true) == m;
    assert HasPivot(m, 3, 0) by { assert !IsZero(m[0][0]); }
    assert WithPivot(m, 3, 0) == m;
    var nrm := Normalized(m, 3, 0);
    assert nrm[0] == m[0] by {
      assert forall c :: 0 <= c < 3 ==> nrm[0][c] * 1.0 == m[0][c];
    }
    assert nrm == m;
    var e := Eliminated(m, 3, 0, 0, 2, true);
    assert e[1] == EliminatedRow(m[1], m[0], 0, true);
    assert e[1] == [0.0, 0.0, 0.0];
  }

  lemma SecondIteration(first: Mat)
    requires first == [[1.0, 1.0, 2.0], [0.0, 0.0, 0.0]]
    ensures PivotStep(first, 3, 1, true) == first
  {
    assert forall i :: 1 <= i < 2 ==> IsZero(first[i][1]);
  }
}

=== FILE: lin_sys_solver_c.dfy ===
/** LinSysSolverC.c: the `float`/`int64_t` solver. It always takes the
    multi-threaded elimination path, its workers do not skip zero factors,
    and its classifier counts the rank. Single-precision rounding is not
    modelled: entries are exact reals and `EPSILON` is `Matrix.Eps`. */
module LinSysSolverC {
  import Layout
  import Partition
  import opened Matrix

  /** The number of rows among the first `k` that have a non-zero
      coefficient. */
  function RankUpTo(m: Mat, cols: nat, k: nat): (n: nat)
    requires Layout.Uniform(m, cols) && cols >= 1 && k <= |m|
    ensures n <= k
  {
    if k == 0 then 0
    else RankUpTo(m, cols, k - 1) + (if AllZero(m[k - 1], cols - 1) then 0 else 1)
  }

  /** The `rank` that `solutions_in_system` counts. */
  function Rank(m: Mat, cols: nat): (n: nat)
    requires Layout.Uniform(m, cols) && cols >= 1
    ensures n <= |m|
  {
    RankUpTo(m, cols, |m|)
  }

  /** Some row reads `0 = b` with `b` not zero. */
  predicate HasInconsistentRow(m: Mat, cols: nat)
    requires Layout.Uniform(m, cols) && cols >= 1
  {
    exists i :: 0 <= i < |m| && Inconsistent(m[i], cols - 1)
  }

  /** `solutions_in_system`: 0 as soon as a row is inconsistent, otherwise 2
      when the rank is below the number of variables, otherwise 1. */
  method SolutionsInSystem(m: Mat, cols: nat) returns (status: int)
    requires Layout.Uniform(m, cols) && cols >= 1
    ensures status == 0 || status == 1 || status == 2
    ensures status == 0 <==> HasInconsistentRow(m, cols)
    ensures status == 2 <==> !HasInconsistentRow(m, cols) && Rank(m, cols) < cols - 1
    ensures status == 1 <==> !HasInconsistentRow(m, cols) && Rank(m, cols) >= cols - 1
  {
    var rank := 0;
    var vars := cols - 1;
    var row := 0;
    while row < |m|
      invariant 0 <= row <= |m|
      invariant rank == RankUpTo(m, cols, row)
      invariant forall i :: 0 <= i < row ==> !Inconsistent(m[i], vars)
    {
      var nonZeroFound := false;
      var col := 0;
      while col < vars && !nonZeroFound
        invariant 0 <= col <= vars
        invariant !nonZeroFound ==> AllZero(m[row], col)
        invariant nonZeroFound ==> !AllZero(m[row], vars)
        invariant rank == RankUpTo(m, cols, row) + (if nonZeroFound then 1 else 0)
        decreases vars - col, if nonZeroFound then 0 else 1
      {
        if !IsZero(m[row][col]) {
          nonZeroFound := true;
          rank := rank + 1;
        } else {
          col := col + 1;
        }
      }
      if !nonZeroFound && !IsZero(m[row][vars]) {
        return 0;
      }
      row := row + 1;
    }
    if rank < vars {
      return 2;
    }
    return 1;
  }

  /** A matrix with a unit pivot on the diagonal of every variable column
      has full rank, so a consistent one is reported as having exactly one
      solution. */
  lemma {:induction false} PivotsGiveFullRank(m: Mat, cols: nat, k: nat)
    requires Layout.Uniform(m, cols) && cols >= 1 && k <= cols - 1 && k <= |m|
    requires forall j :: 0 <= j < k ==> m[j][j] == 1.0
    ensures RankUpTo(m, cols, k) == k
  {
    if k > 0 {
      PivotsGiveFullRank(m, cols, k - 1);
      assert !IsZero(m[k - 1][k - 1]);
    }
  }

  /** One iteration of the outer loop of `solve_linear_system`, with the
      elimination always going through `eliminate_multi_thread`. */
  method Iteration(m: Mat, cols: nat, row: nat, numThreads: int) returns (n: Mat)
    requires Layout.Uniform(m, cols) && row < |m| && row < cols && numThreads >= 1
    ensures n == PivotStep(m, cols, row, false)
  {
    var withPivot, ok := PreparePivot(m, cols, row);
    n := m;
    if ok {
      var normalized := NormalizeRow(withPivot, cols, row);
      n := Partition.EliminateMultiThread(normalized, cols, row, numThreads, false);
    }
  }

  /** The first `k` iterations of the outer loop. */
  method Iterations(m: Mat, cols: nat, k: nat, numThreads: int) returns (reduced: Mat)
    requires Layout.Uniform(m, cols) && k <= |m| && k <= cols && numThreads >= 1
    ensures reduced == Reduce(m, cols, k, false)
    ensures |reduced| == |m| && Layout.Uniform(reduced, cols)
    ensures forall j :: 0 <= j < k ==> ColumnDone(reduced, cols, j, false)
  {
    reduced := m;
    var row := 0;
    while row < k
      invariant 0 <= row <= k
      invariant Progress(m, cols, row, false, reduced)
    {
      AdvanceDone(m, cols, row, false, reduced);
      reduced := Iteration(reduced, cols, row, numThreads);
      row := row + 1;
    }
  }

  /** `solve_linear_system(matrix, rows, cols, num_threads)`:
      `min(cols - 1, rows)` iterations without the zero-factor skip, the
      right-hand-side clean-up, then the rank classification. The thread
      count does not affect the result. */
  method SolveLinearSystem(m: Mat, cols: nat, numThreads: int) returns (status: int, out: Mat)
    requires Layout.Uniform(m, cols) && cols >= 1 && numThreads >= 1
    ensures var k := if cols - 1 < |m| then cols - 1 else |m|;
            out == CleanRhs(Reduce(m, cols, k, false), cols)
    ensures |out| == |m| && Layout.Uniform(out, cols)
    ensures forall i :: 0 <= i < |m| ==> out[i][cols - 1] == 0.0 || !IsZero(out[i][cols - 1])
    ensures var k := if cols - 1 < |m| then cols - 1 else |m|;
            forall j :: 0 <= j < k ==> ColumnDone(out, cols, j, false)
    ensures status == 0 || status == 1 || status == 2
    ensures status == 0 <==> HasInconsistentRow(out, cols)
    ensures status == 2 <==> !HasInconsistentRow(out, cols) && Rank(out, cols) < cols - 1
  {
    var k := if cols - 1 < |m| then cols - 1 else |m|;
    var reduced := Iterations(m, cols, k, numThreads);
    out := RemoveMinusZeros(reduced, cols);
    CleanRhsKeepsColumnsDone(reduced, cols, k, false);
    status := SolutionsInSystem(out, cols);
  }


  /** The rank classifier on the reduced form of "x + y = 2, 2x + 2y = 4":
      one non-zero row, two variables, no inconsistent row, so 2. */
  lemma DependentSystemHasRankOne(m: Mat)
    requires m == [[1.0, 1.0, 2.0], [0.0, 0.0, 0.0]]
    ensures !HasInconsistentRow(m, 3) && Rank(m, 3) == 1 && Rank(m, 3) < 3 - 1
  {
    assert !AllZero(m[0], 2) by { assert !IsZero(m[0][0]); }
    assert AllZero(m[1], 2);
    assert RankUpTo(m, 3, 1) == 1;
    assert !Inconsistent(m[0], 2) && !Inconsistent(m[1], 2);
  }
}

=== FILE: matrix.dfy ===
/** The building blocks the three C solvers share: `is_zero`, the pivot
    search `first_non_zero_in_col`, `swap_rows`, normalisation of the pivot
    row, elimination of the other rows (`eliminate_single_thread` and the
    `rows_op_thread` worker), one Gauss–Jordan iteration, and the clean-up
    of the right-hand-side column.

    A C matrix is a row-major buffer of `rows * cols` numbers; here it is the
    sequence of its rows, each `cols` long (`Layout.At` and `Layout.Flatten`
    relate the two). The last column holds the right-hand sides, so a matrix
    of width `cols` describes `cols - 1` variables. Entries are exact reals. */
module Matrix {
  import Layout

  type Mat = seq<seq<real>>

  /** `EPSILON`, 1e-9. */
  const Eps: real := 0.000000001

  /** `is_zero`: `fabs(x) < EPSILON`. */
  predicate IsZero(x: real)
  {
    -Eps < x < Eps
  }

  /** `fabs` on an exact real. */
  function Fabs(x: real): real
  {
    if x < 0.0 then -x else x
  }

  /** `is_zero` is the open band of half-width `EPSILON` around 0: it keeps
      0 itself, treats a value and its negation alike, and rejects `EPSILON`. */
  lemma IsZeroBand(x: real)
    ensures IsZero(x) <==> Fabs(x) < Eps
    ensures IsZero(x) <==> IsZero(-x)
    ensures IsZero(0.0) && !IsZero(Eps) && !IsZero(-Eps)
  {
  }

  // ---------------------------------------------------------------------
  // Pivot search

  /** `first_non_zero_in_col`: the first row at or after `start` whose entry
      in column `col` is not zero, or -1 when there is none. */
  function FirstNonZero(m: Mat, cols: nat, col: nat, start: nat): (r: int)
    requires Layout.Uniform(m, cols) && col < cols
    ensures r == -1 || start <= r < |m|
    ensures r == -1 <==> forall i :: start <= i < |m| ==> IsZero(m[i][col])
    ensures r != -1 ==> !IsZero(m[r][col]) && forall i :: start <= i < r ==> IsZero(m[i][col])
    decreases |m| - start
  {
    if start >= |m| then -1
    else if !IsZero(m[start][col]) then start
    else FirstNonZero(m, cols, col, start + 1)
  }

  /** The loop of `first_non_zero_in_col`. */
  method FirstNonZeroInCol(m: Mat, cols: nat, col: nat, start: nat) returns (r: int)
    requires Layout.Uniform(m, cols) && col < cols
    ensures r == FirstNonZero(m, cols, col, start)
  {
    var row := start;
    while row < |m|
      invariant start <= row
      invariant FirstNonZero(m, cols, col, row) == FirstNonZero(m, cols, col, start)
      decreases |m| - row
    {
      if !IsZero(m[row][col]) {
        return row;
      }
      row := row + 1;
    }
    return -1;
  }

  // ---------------------------------------------------------------------
  // Row exchange

  /** Row `x` with its entries in columns `[lo, hi)` taken from `y`. */
  function Mix(x: seq<real>, y: seq<real>, lo: int, hi: int): (z: seq<real>)
    requires |x| == |y|
    ensures |z| == |x|
  {
    seq(|x|, c requires 0 <= c < |x| => if lo <= c < hi then y[c] else x[c])
  }

  /** Rows `a` and `b` with their entries in columns `[lo, hi)` exchanged. */
  function SwappedRange(m: Mat, cols: nat, a: nat, b: nat, lo: int, hi: int): (s: Mat)
    requires Layout.Uniform(m, cols) && a < |m| && b < |m|
    ensures |s| == |m| && Layout.Uniform(s, cols)
  {
    m[a := Mix(m[a], m[b], lo, hi)][b := Mix(m[b], m[a], lo, hi)]
  }

  /** `swap_rows(matrix, cols, a, b, start)`: rows `a` and `b` exchange
      their entries in columns `start` and beyond. */
  function Swapped(m: Mat, cols: nat, a: nat, b: nat, start: nat): (s: Mat)
    requires Layout.Uniform(m, cols) && a < |m| && b < |m|
    ensures |s| == |m| && Layout.Uniform(s, cols)
    ensures forall c :: 0 <= c < cols ==>
              s[a][c] == (if c < start then m[a][c] else m[b][c]) &&
              s[b][c] == (if c < start then m[b][c] else m[a][c])
    ensures forall i :: 0 <= i < |m| && i != a && i != b ==> s[i] == m[i]
  {
    SwappedRange(m, cols, a, b, start, cols)
  }

  /** The loop of `swap_rows`. */
  method SwapRows(m: Mat, cols: nat, a: nat, b: nat, start: nat) returns (s: Mat)
    requires Layout.Uniform(m, cols) && a < |m| && b < |m| && start <= cols
    ensures s == Swapped(m, cols, a, b, start)
  {
    s := m;
    var col := start;
    assert Mix(m[a], m[b], start, col) == m[a] && Mix(m[b], m[a], start, col) == m[b];
    while col < cols
      invariant start <= col <= cols
      invariant s == SwappedRange(m, cols, a, b, start, col)
    {
      var temp := s[a][col];
      s := s[a := s[a][col := s[b][col]]];
      s := s[b := s[b][col := temp]];
      assert s[a] == Mix(m[a], m[b], start, col + 1);
      assert s[b] == Mix(m[b], m[a], start, col + 1);
      col := col + 1;
    }
  }

  /** Exchanging the same rows twice restores the matrix. */
  lemma SwapTwice(m: Mat, cols: nat, a: nat, b: nat, start: nat)
    requires Layout.Uniform(m, cols) && a < |m| && b < |m|
    ensures Swapped(Swapped(m, cols, a, b, start), cols, a, b, start) == m
  {
    var t := Swapped(Swapped(m, cols, a, b, start), cols, a, b, start);
    forall i | 0 <= i < |m|
      ensures t[i] == m[i]
    {
      if i == a || i == b {
        assert forall c :: 0 <= c < cols ==> t[i][c] == m[i][c];
      }
    }
  }

  // ---------------------------------------------------------------------
  // Normalisation

  /** The pivot row after the loop `matrix[row][c] /= pivot` for `c >= row`;
      every other row is unchanged. */
  function Normalized(m: Mat, cols: nat, row: nat): (n: Mat)
    requires Layout.Uniform(m, cols) && row < |m| && row < cols && m[row][row] != 0.0
    ensures |n| == |m| && Layout.Uniform(n, cols)
    ensures n[row][row] == 1.0
    ensures forall c :: 0 <= c < row ==> n[row][c] == m[row][c]
    ensures forall c :: row <= c < cols ==> n[row][c] * m[row][row] == m[row][c]
    ensures forall i :: 0 <= i < |m| && i != row ==> n[i] == m[i]
  {
    m[row := Scaled(m[row], row, cols, m[row][row])]
  }

  /** `x` with the entries in columns `[lo, hi)` divided by `d`. */
  function Scaled(x: seq<real>, lo: int, hi: int, d: real): (y: seq<real>)
    requires d != 0.0
    ensures |y| == |x|
  {
    seq(|x|, c requires 0 <= c < |x| => if lo <= c < hi then x[c] / d else x[c])
  }

  /** The normalisation loop of `solve_linear_system`; the pivot is read
      once before the loop. */
  method NormalizeRow(m: Mat, cols: nat, row: nat) returns (n: Mat)
    requires Layout.Uniform(m, cols) && row < |m| && row < cols && m[row][row] != 0.0
    ensures n == Normalized(m, cols, row)
  {
    var pivot := m[row][row];
    n := m;
    var c := row;
    assert Scaled(m[row], row, c, pivot) == m[row];
    while c < cols
      invariant row <= c <= cols
      invariant n == m[row := Scaled(m[row], row, c, pivot)]
    {
      n := n[row := n[row][c := n[row][c] / pivot]];
      assert n[row] == Scaled(m[row], row, c + 1, pivot);
      c := c + 1;
    }
  }

  // ---------------------------------------------------------------------
  // Elimination

  /** One non-pivot row after the worker's inner loop: with
      `factor = x[p]`, every entry from column `p` on loses
      `factor * pivotRow[c]`. With `skip` (the `is_zero(factor)` test of
      LinSysSolver.c and Libc.c) a row whose factor is zero is left alone. */
  function EliminatedRow(x: seq<real>, pivotRow: seq<real>, p: nat, skip: bool): (y: seq<real>)
    requires |x| == |pivotRow| && p < |x|
    ensures |y| == |x|
  {
    if skip && IsZero(x[p]) then x
    else seq(|x|, c requires 0 <= c < |x| => if c < p then x[c] else x[c] - x[p] * pivotRow[c])
  }

  /** `rows_op_thread` on rows `[lo, hi)` with pivot row `p`; with
      `lo = 0` and `hi = |m|` it is `eliminate_single_thread`. */
  function Eliminated(m: Mat, cols: nat, p: nat, lo: int, hi: int, skip: bool): (e: Mat)
    requires Layout.Uniform(m, cols) && p < |m| && p < cols
    ensures |e| == |m| && Layout.Uniform(e, cols)
    ensures e[p] == m[p]
    ensures forall i :: 0 <= i < |m| && !(lo <= i < hi) ==> e[i] == m[i]
    // nothing changes left of the pivot column
    ensures forall i, c :: 0 <= i < |m| && 0 <= c < p ==> e[i][c] == m[i][c]
    // with the skip, a row whose factor is zero is left alone
    ensures skip ==> forall i :: 0 <= i < |m| && IsZero(m[i][p]) ==> e[i] == m[i]
    // with a unit pivot the pivot column is cleared: within epsilon of zero
    // with the skip, exactly zero without it
    ensures m[p][p] == 1.0 ==>
              forall i :: lo <= i < hi && 0 <= i < |m| && i != p ==> Cleared(e[i][p], skip)
    // a row that is not skipped is cleared exactly under a unit pivot
    ensures m[p][p] == 1.0 ==>
              forall i :: lo <= i < hi && 0 <= i < |m| && i != p && !(skip && IsZero(m[i][p])) ==>
                e[i][p] == 0.0
    // a row that is not skipped loses, from the pivot column on, factor times the pivot row
    ensures forall i, c :: lo <= i < hi && 0 <= i < |m| && i != p && !(skip && IsZero(m[i][p])) && p <= c < cols ==>
              e[i][c] == m[i][c] - m[i][p] * m[p][c]
  {
    SweepShape(m, cols, p, lo, hi, skip);
    SweepFrame(m, cols, p, lo, hi, skip);
    SweepClears(m, cols, p, lo, hi, skip);
    Sweep(m, p, lo, hi, skip)
  }

  lemma SweepShape(m: Mat, cols: nat, p: nat, lo: int, hi: int, skip: bool)
    requires Layout.Uniform(m, cols) && p < |m| && p < cols
    ensures var e := Sweep(m, p, lo, hi, skip);
            && Layout.Uniform(e, cols) && e[p] == m[p]
            && (forall i :: 0 <= i < |m| && !(lo <= i < hi) ==> e[i] == m[i])
            && (skip ==> forall i :: 0 <= i < |m| && IsZero(m[i][p]) ==> e[i] == m[i])
  {
  }

  lemma SweepFrame(m: Mat, cols: nat, p: nat, lo: int, hi: int, skip: bool)
    requires Layout.Uniform(m, cols) && p < |m| && p < cols
    ensures var e := Sweep(m, p, lo, hi, skip);
            && (forall i, c :: 0 <= i < |m| && 0 <= c < p ==> e[i][c] == m[i][c])
            && (forall i, c :: lo <= i < hi && 0 <= i < |m| && i != p && !(skip && IsZero(m[i][p])) && p <= c < cols ==>
                  e[i][c] == m[i][c] - m[i][p] * m[p][c])
  {
  }

  lemma SweepClears(m: Mat, cols: nat, p: nat, lo: int, hi: int, skip: bool)
    requires Layout.Uniform(m, cols) && p < |m| && p < cols
    ensures var e := Sweep(m, p, lo, hi, skip);
            m[p][p] == 1.0 ==>
              && (forall i :: lo <= i < hi && 0 <= i < |m| && i != p ==> Cleared(e[i][p], skip))
              && (forall i :: lo <= i < hi && 0 <= i < |m| && i != p && !(skip && IsZero(m[i][p])) ==>
                    e[i][p] == 0.0)
  {
  }

  /** Rows `[lo, hi)` other than `p` replaced by their eliminated form. */
  function Sweep(m: Mat, p: nat, lo: int, hi: int, skip: bool): (e: Mat)
    requires p < |m| && forall i :: 0 <= i < |m| ==> |m[i]| == |m[p]|
    requires p < |m[p]|
    ensures |e| == |m|
  {
    seq(|m|, i requires 0 <= i < |m| =>
      if lo <= i < hi && i != p then EliminatedRow(m[i], m[p], p, skip) else m[i])
  }

  /** The inner loop of the worker for one row: from the pivot column on,
      subtract `factor * pivotRow[c]`, where `factor` is the row's entry in
      the pivot column, read before the loop. */
  method SubtractPivotRow(x: seq<real>, pivotRow: seq<real>, p: nat) returns (y: seq<real>)
    requires |x| == |pivotRow| && p < |x|
    ensures y == EliminatedRow(x, pivotRow, p, false)
  {
    var factor := x[p];
    y := x;
    var c := p;
    while c < |x|
      invariant p <= c <= |x| && |y| == |x|
      invariant forall k :: 0 <= k < |x| ==>
                  y[k] == (if p <= k < c then x[k] - factor * pivotRow[k] else x[k])
    {
      y := y[c := y[c] - factor * pivotRow[c]];
      c := c + 1;
    }
    assert forall k :: 0 <= k < |x| ==> y[k] == EliminatedRow(x, pivotRow, p, false)[k];
  }

  /** The row loop of `rows_op_thread` (and of `eliminate_single_thread`
      over all rows). */
  method RowsOp(m: Mat, cols: nat, p: nat, lo: nat, hi: nat, skip: bool) returns (e: Mat)
    requires Layout.Uniform(m, cols) && p < |m| && p < cols && lo <= hi <= |m|
    ensures e == Eliminated(m, cols, p, lo, hi, skip)
  {
    e := SweepRows(m, p, lo, hi, skip);
  }

  /** The row loop itself, stated on `Sweep`. */
  method SweepRows(m: Mat, p: nat, lo: nat, hi: nat, skip: bool) returns (e: Mat)
    requires p < |m| && forall i :: 0 <= i < |m| ==> |m[i]| == |m[p]|
    requires p < |m[p]| && lo <= hi <= |m|
    ensures e == Sweep(m, p, lo, hi, skip)
  {
    e := m;
    var r := lo;
    assert e == Sweep(m, p, lo, r, skip);
    while r < hi
      invariant lo <= r <= hi
      invariant e == Sweep(m, p, lo, r, skip)
    {
      SweepExtend(m, p, lo, r, skip);
      assert e[r] == m[r] && e[p] == m[p];
      var row := e[r];
      if r != p && !(skip && IsZero(e[r][p])) {
        row := SubtractPivotRow(e[r], e[p], p);
      }
      assert row == if r != p then EliminatedRow(m[r], m[p], p, skip) else m[r];
      e := e[r := row];
      r := r + 1;
    }
  }

  /** Sweeping one more row replaces just that row. */
  lemma SweepExtend(m: Mat, p: nat, lo: int, r: nat, skip: bool)
    requires p < |m| && forall i :: 0 <= i < |m| ==> |m[i]| == |m[p]|
    requires p < |m[p]| && lo <= r < |m|
    ensures Sweep(m, p, lo, r + 1, skip)
         == Sweep(m, p, lo, r, skip)[r := if r != p then EliminatedRow(m[r], m[p], p, skip) else m[r]]
  {
  }

  /** `eliminate_single_thread`. */
  method EliminateSingleThread(m: Mat, cols: nat, p: nat, skip: bool) returns (e: Mat)
    requires Layout.Uniform(m, cols) && p < |m| && p < cols
    ensures e == Eliminated(m, cols, p, 0, |m|, skip)
  {
    e := RowsOp(m, cols, p, 0, |m|, skip);
  }

  /** What "the pivot column is cleared" means for one entry. */
  predicate Cleared(x: real, skip: bool)
  {
    if skip then IsZero(x) else x == 0.0
  }

  /** Working through `[lo, mid)` and then `[mid, hi)` is working through
      `[lo, hi)`: the worker reads only the pivot row, which it never writes. */
  lemma EliminatedSplit(m: Mat, cols: nat, p: nat, lo: int, mid: int, hi: int, skip: bool)
    requires Layout.Uniform(m, cols) && p < |m| && p < cols && lo <= mid <= hi
    ensures Eliminated(Eliminated(m, cols, p, lo, mid, skip), cols, p, mid, hi, skip)
         == Eliminated(m, cols, p, lo, hi, skip)
  {
  }

  /** Workers on disjoint ranges commute, so the order in which threads
      finish does not matter. */
  lemma EliminatedCommute(m: Mat, cols: nat, p: nat, a: int, b: int, c: int, d: int, skip: bool)
    requires Layout.Uniform(m, cols) && p < |m| && p < cols
    requires b <= c || d <= a
    ensures Eliminated(Eliminated(m, cols, p, a, b, skip), cols, p, c, d, skip)
         == Eliminated(Eliminated(m, cols, p, c, d, skip), cols, p, a, b, skip)
  {
  }

  // ---------------------------------------------------------------------
  // One Gauss–Jordan iteration

  /** Iteration `row` finds a pivot: the diagonal entry or an entry below it
      in the same column is not zero. */
  function HasPivot(m: Mat, cols: nat, row: nat): (b: bool)
    requires Layout.Uniform(m, cols) && row < |m| && row < cols
    ensures b <==> exists i :: row <= i < |m| && !IsZero(m[i][row])
  {
    !IsZero(m[row][row]) || FirstNonZero(m, cols, row, row + 1) != -1
  }

  /** The matrix with a usable pivot on the diagonal: unchanged when the
      diagonal entry is not zero, otherwise with the first later row whose
      entry in that column is not zero swapped in, from column `row` on. */
  function WithPivot(m: Mat, cols: nat, row: nat): (n: Mat)
    requires Layout.Uniform(m, cols) && row < |m| && row < cols && HasPivot(m, cols, row)
    ensures |n| == |m| && Layout.Uniform(n, cols)
    ensures !IsZero(n[row][row])
    ensures forall i, c :: 0 <= i < |m| && 0 <= c < row ==> n[i][c] == m[i][c]
    // a usable diagonal entry is kept as it is
    ensures !IsZero(m[row][row]) ==> n == m
    // otherwise the first later row with a usable entry is the swap partner:
    // the two rows exchange their entries from column `row` on, and every
    // other row is untouched
    ensures IsZero(m[row][row]) ==>
              var f := FirstNonZero(m, cols, row, row + 1);
              && row < f < |m| && !IsZero(m[f][row])
              && (forall i :: row + 1 <= i < f ==> IsZero(m[i][row]))
              && (forall c :: row <= c < cols ==> n[row][c] == m[f][c] && n[f][c] == m[row][c])
              && (forall c :: 0 <= c < row ==> n[row][c] == m[row][c] && n[f][c] == m[f][c])
              && (forall i :: 0 <= i < |m| && i != row && i != f ==> n[i] == m[i])
  {
    if !IsZero(m[row][row]) then m
    else Swapped(m, cols, row, FirstNonZero(m, cols, row, row + 1), row)
  }

  /** The pivot search and swap at the top of each iteration of
      `solve_linear_system`; `ok` is false when the iteration is skipped. */
  method PreparePivot(m: Mat, cols: nat, row: nat) returns (n: Mat, ok: bool)
    requires Layout.Uniform(m, cols) && row < |m| && row < cols
    ensures ok == HasPivot(m, cols, row)
    ensures ok ==> n == WithPivot(m, cols, row)
    ensures !ok ==> n == m
  {
    n := m;
    ok := true;
    if IsZero(m[row][row]) {
      var found := FirstNonZeroInCol(m, cols, row, row + 1);
      if found == -1 {
        ok := false;
      } else {
        n := SwapRows(m, cols, row, found, row);
      }
    }
  }

  /** One iteration of the outer loop of `solve_linear_system` with pivot
      row `row`: find a pivot, normalise its row and eliminate the column
      from every other row. */
  function PivotStep(m: Mat, cols: nat, row: nat, skip: bool): (n: Mat)
    requires Layout.Uniform(m, cols) && row < |m| && row < cols
    ensures |n| == |m| && Layout.Uniform(n, cols)
    // a column with nothing usable at or below the diagonal is skipped unchanged
    ensures (forall i :: row <= i < |m| ==> IsZero(m[i][row])) ==> n == m
  {
    if HasPivot(m, cols, row) then
      var nw := Normalized(WithPivot(m, cols, row), cols, row);
      assert Sweep(nw, row, 0, |m|, skip) == Eliminated(nw, cols, row, 0, |m|, skip);
      Sweep(nw, row, 0, |m|, skip)
    else m
  }

  /** The first `k` iterations of the outer loop. */
  function Reduce(m: Mat, cols: nat, k: nat, skip: bool): (n: Mat)
    requires Layout.Uniform(m, cols) && k <= |m| && k <= cols
    ensures |n| == |m| && Layout.Uniform(n, cols)
    decreases k
  {
    if k == 0 then m else PivotStep(Reduce(m, cols, k - 1, skip), cols, k - 1, skip)
  }

  /** Column `j` was handled by an iteration: either it holds a unit pivot
      on the diagonal and is cleared in every other row, or it had nothing
      usable at or below the diagonal. */
  predicate ColumnDone(m: Mat, cols: nat, j: nat, skip: bool)
    requires Layout.Uniform(m, cols) && j < |m| && j < cols
  {
    || (m[j][j] == 1.0 && forall i :: 0 <= i < |m| && i != j ==> Cleared(m[i][j], skip))
    || (forall i :: j <= i < |m| ==> IsZero(m[i][j]))
  }

  /** An iteration leaves every column left of its pivot column alone. */
  lemma PivotStepFrame(m: Mat, cols: nat, row: nat, skip: bool)
    requires Layout.Uniform(m, cols) && row < |m| && row < cols
    ensures var n := PivotStep(m, cols, row, skip);
            forall i, c :: 0 <= i < |m| && 0 <= c < row ==> n[i][c] == m[i][c]
  {
    if HasPivot(m, cols, row) {
      var w := WithPivot(m, cols, row);
      var nw := Normalized(w, cols, row);
      assert forall i, c :: 0 <= i < |m| && 0 <= c < row ==> nw[i][c] == m[i][c];
    }
  }

  /** An iteration completes its own column. */
  lemma PivotStepDone(m: Mat, cols: nat, row: nat, skip: bool)
    requires Layout.Uniform(m, cols) && row < |m| && row < cols
    ensures ColumnDone(PivotStep(m, cols, row, skip), cols, row, skip)
  {
    if HasPivot(m, cols, row) {
      var w := WithPivot(m, cols, row);
      var nw := Normalized(w, cols, row);
      var e := Eliminated(nw, cols, row, 0, |m|, skip);
      assert e[row][row] == 1.0;
      assert forall i :: 0 <= i < |m| && i != row ==> Cleared(e[i][row], skip);
    }
  }

  /** An iteration completes its own column and keeps the earlier ones
      done: it only touches columns from its pivot column on. */
  lemma PivotStepKeepsAllDone(m: Mat, cols: nat, row: nat, skip: bool)
    requires Layout.Uniform(m, cols) && row < |m| && row < cols
    requires forall j :: 0 <= j < row ==> ColumnDone(m, cols, j, skip)
    ensures forall j :: 0 <= j <= row ==> ColumnDone(PivotStep(m, cols, row, skip), cols, j, skip)
  {
    PivotStepDone(m, cols, row, skip);
    forall j | 0 <= j < row
      ensures ColumnDone(PivotStep(m, cols, row, skip), cols, j, skip)
    {
      PivotStepKeepsDone(m, cols, row, skip, j);
    }
  }

  /** An iteration keeps an earlier column done. */
  lemma PivotStepKeepsDone(m: Mat, cols: nat, row: nat, skip: bool, j: nat)
    requires Layout.Uniform(m, cols) && j < row < |m| && row < cols
    requires ColumnDone(m, cols, j, skip)
    ensures ColumnDone(PivotStep(m, cols, row, skip), cols, j, skip)
  {
    PivotStepFrame(m, cols, row, skip);
    ColumnDoneFrame(m, PivotStep(m, cols, row, skip), cols, j, skip);
  }

  /** `m` is the matrix after the first `row` iterations starting from
      `m0`. */
  predicate Reached(m0: Mat, cols: nat, row: nat, skip: bool, m: Mat)
  {
    Layout.Uniform(m0, cols) && row <= |m0| && row <= cols && m == Reduce(m0, cols, row, skip)
  }

  /** One more iteration reaches the next row. */
  lemma Advance(m0: Mat, cols: nat, row: nat, skip: bool, m: Mat)
    requires row < |m0| && row < cols && Reached(m0, cols, row, skip, m)
    ensures Layout.Uniform(m, cols) && |m| == |m0|
    ensures Reached(m0, cols, row + 1, skip, PivotStep(m, cols, row, skip))
  {
  }

  /** `m` is the matrix after the first `row` iterations starting from
      `m0`, and those iterations have completed their columns. */
  predicate Progress(m0: Mat, cols: nat, row: nat, skip: bool, m: Mat)
  {
    && Reached(m0, cols, row, skip, m) && |m| == |m0| && Layout.Uniform(m, cols)
    && forall j :: 0 <= j < row ==> ColumnDone(m, cols, j, skip)
  }

  /** One more iteration makes progress by one column. */
  lemma AdvanceDone(m0: Mat, cols: nat, row: nat, skip: bool, m: Mat)
    requires row < |m0| && row < cols && Progress(m0, cols, row, skip, m)
    ensures Layout.Uniform(m, cols) && |m| == |m0| && row < |m|
    ensures Progress(m0, cols, row + 1, skip, PivotStep(m, cols, row, skip))
  {
    Advance(m0, cols, row, skip, m);
    PivotStepKeepsAllDone(m, cols, row, skip);
  }

  /** After the first `k` iterations, each of the columns `0 .. k-1` is done:
      it holds a unit pivot cleared from every other row, or it had nothing
      usable at or below the diagonal. */
  lemma {:induction false} ReduceDone(m: Mat, cols: nat, k: nat, skip: bool)
    requires Layout.Uniform(m, cols) && k <= |m| && k <= cols
    ensures forall j :: 0 <= j < k ==> ColumnDone(Reduce(m, cols, k, skip), cols, j, skip)
    decreases k
  {
    if k > 0 {
      var r := Reduce(m, cols, k - 1, skip);
      ReduceDone(m, cols, k - 1, skip);
      PivotStepKeepsAllDone(r, cols, k - 1, skip);
    }
  }

  /** Whether a column is done depends only on that column. */
  lemma ColumnDoneFrame(m: Mat, n: Mat, cols: nat, j: nat, skip: bool)
    requires Layout.Uniform(m, cols) && Layout.Uniform(n, cols) && |n| == |m| && j < |m| && j < cols
    requires forall i, c :: 0 <= i < |m| && 0 <= c < j + 1 ==> n[i][c] == m[i][c]
    requires ColumnDone(m, cols, j, skip)
    ensures ColumnDone(n, cols, j, skip)
  {
    assert forall i :: 0 <= i < |m| ==> n[i][j] == m[i][j];
  }

  // ---------------------------------------------------------------------
  // Classification helpers

  /** The first `n` entries of `x` are all zero. */
  predicate AllZero(x: seq<real>, n: nat)
    requires n <= |x|
  {
    forall c :: 0 <= c < n ==> IsZero(x[c])
  }

  /** At most one of the first `n` entries of `x` is not zero. */
  predicate AtMostOneNonZero(x: seq<real>, n: nat)
    requires n <= |x|
  {
    forall c, d :: 0 <= c < d < n ==> IsZero(x[c]) || IsZero(x[d])
  }

  /** A row `0 = b` with `b` not zero: every coefficient is zero but the
      right-hand side (column `vars`) is not. */
  predicate Inconsistent(x: seq<real>, vars: nat)
    requires vars < |x|
  {
    AllZero(x, vars) && !IsZero(x[vars])
  }

  /** What `has_solutions` (LinSysSolver.c) and `is_solvable` (Libc.c)
      accept: every row has at most one non-zero coefficient and no row is
      inconsistent. */
  predicate Solvable(m: Mat, cols: nat)
    requires Layout.Uniform(m, cols) && cols >= 1
  {
    forall i :: 0 <= i < |m| ==> AtMostOneNonZero(m[i], cols - 1) && !Inconsistent(m[i], cols - 1)
  }

  /** `has_solutions` / `is_solvable`: the row scan with its early returns. */
  method HasSolutions(m: Mat, cols: nat) returns (b: bool)
    requires Layout.Uniform(m, cols) && cols >= 1
    ensures b <==> Solvable(m, cols)
  {
    var vars := cols - 1;
    var rowIdx := 0;
    while rowIdx < |m|
      invariant 0 <= rowIdx <= |m|
      invariant forall i :: 0 <= i < rowIdx ==> AtMostOneNonZero(m[i], vars) && !Inconsistent(m[i], vars)
    {
      var allZeros := true;
      var c := 0;
      while c < vars
        invariant 0 <= c <= vars
        invariant allZeros <==> AllZero(m[rowIdx], c)
        invariant AtMostOneNonZero(m[rowIdx], c)
      {
        if !IsZero(m[rowIdx][c]) {
          if !allZeros {
            var d :| 0 <= d < c && !IsZero(m[rowIdx][d]);
            assert !AtMostOneNonZero(m[rowIdx], vars) by {
              assert !(IsZero(m[rowIdx][d]) || IsZero(m[rowIdx][c]));
            }
            return false;
          }
          allZeros := false;
        }
        c := c + 1;
      }
      if allZeros && !IsZero(m[rowIdx][vars]) {
        return false;
      }
      rowIdx := rowIdx + 1;
    }
    return true;
  }

  /** `row_contains_only_zeros`: every entry of the row, right-hand side
      included, is zero. */
  method RowContainsOnlyZeros(m: Mat, cols: nat, rowIdx: nat) returns (b: bool)
    requires Layout.Uniform(m, cols) && rowIdx < |m|
    ensures b <==> AllZero(m[rowIdx], cols)
  {
    var i := 0;
    while i < cols
      invariant 0 <= i <= cols
      invariant AllZero(m[rowIdx], i)
    {
      if !IsZero(m[rowIdx][i]) {
        return false;
      }
      i := i + 1;
    }
    return true;
  }

  // ---------------------------------------------------------------------
  // Right-hand-side clean-up

  /** The loop "remove minus zeros from result column" of Libc.c and
      LinSysSolverC.c: a right-hand side that is zero becomes exactly 0. */
  function CleanRhs(m: Mat, cols: nat): (n: Mat)
    requires Layout.Uniform(m, cols) && cols >= 1
    ensures |n| == |m| && Layout.Uniform(n, cols)
    // every right-hand side is now exactly 0 or clearly not zero
    ensures forall i :: 0 <= i < |m| ==> n[i][cols - 1] == 0.0 || !IsZero(n[i][cols - 1])
    // coefficients, and right-hand sides that were not zero, are untouched
    ensures forall i, c :: 0 <= i < |m| && 0 <= c < cols - 1 ==> n[i][c] == m[i][c]
    ensures forall i :: 0 <= i < |m| && !IsZero(m[i][cols - 1]) ==> n[i] == m[i]
    // so which entries are zero does not change
    ensures forall i, c :: 0 <= i < |m| && 0 <= c < cols ==> (IsZero(n[i][c]) <==> IsZero(m[i][c]))
  {
    seq(|m|, i requires 0 <= i < |m| =>
      if IsZero(m[i][cols - 1]) then m[i][cols - 1 := 0.0] else m[i])
  }

  /** The clean-up loop. */
  method RemoveMinusZeros(m: Mat, cols: nat) returns (n: Mat)
    requires Layout.Uniform(m, cols) && cols >= 1
    ensures n == CleanRhs(m, cols)
  {
    n := m;
    var i := 0;
    while i < |m|
      invariant 0 <= i <= |m| && |n| == |m|
      invariant forall k :: 0 <= k < |m| ==> n[k] == (if k < i then CleanRhs(m, cols)[k] else m[k])
    {
      if IsZero(n[i][cols - 1]) {
        n := n[i := n[i][cols - 1 := 0.0]];
      }
      i := i + 1;
    }
  }

  /** The clean-up touches only the right-hand-side column, so every
      variable column that was done stays done. */
  lemma CleanRhsKeepsColumnsDone(m: Mat, cols: nat, k: nat, skip: bool)
    requires Layout.Uniform(m, cols) && cols >= 1 && k <= cols - 1 && k <= |m|
    requires forall j :: 0 <= j < k ==> ColumnDone(m, cols, j, skip)
    ensures forall j :: 0 <= j < k ==> ColumnDone(CleanRhs(m, cols), cols, j, skip)
  {
    var n := CleanRhs(m, cols);
    forall j | 0 <= j < k
      ensures ColumnDone(n, cols, j, skip)
    {
      assert ColumnDone(m, cols, j, skip);
      assert forall i :: 0 <= i < |m| ==> n[i][j] == m[i][j];
    }
  }
}

=== FILE: partition.dfy ===
/** The row partition of `eliminate_multi_thread` (Libc.c and
    LinSysSolverC.c share it) and the sequential equivalent of running one
    `rows_op_thread` worker per range. */
module Partition {
  import Layout
  import Matrix

  /** `MAX_THREADS`. */
  const MaxThreads: int := 64

  /** `min(MAX_THREADS, num_threads)`. */
  function ThreadCount(numThreads: int): (t: int)
    requires numThreads >= 1
    ensures 1 <= t <= MaxThreads && t <= numThreads
    ensures t == numThreads || t == MaxThreads
  {
    if MaxThreads < numThreads then MaxThreads else numThreads
  }

  /** The row ranges `[start, end)` handed to the threads: each of the first
      `t - 1` takes `rows / t` rows and the last takes what is left. */
  function ThreadRanges(rows: nat, numThreads: int): (r: seq<(int, int)>)
    requires numThreads >= 1
    ensures |r| == ThreadCount(numThreads)
  {
    var t := ThreadCount(numThreads);
    var per := rows / t;
    seq(t, i => (i * per, if i == t - 1 then rows else (i + 1) * per))
  }

  /** The range loop of `eliminate_multi_thread`. */
  method Partition(rows: nat, numThreads: int) returns (r: seq<(int, int)>)
    requires numThreads >= 1
    ensures r == ThreadRanges(rows, numThreads)
  {
    var t := if MaxThreads < numThreads then MaxThreads else numThreads;
    var per := rows / t;
    var start := 0;
    r := [];
    var i := 0;
    while i < t
      invariant 0 <= i <= t && |r| == i
      invariant i < t ==> start == i * per
      invariant forall k :: 0 <= k < i ==> r[k] == ThreadRanges(rows, numThreads)[k]
    {
      var end := if i == t - 1 then rows else start + per;
      r := r + [(start, end)];
      start := end;
      i := i + 1;
    }
  }

  /** The first `t - 1` ranges together take no more than `rows` rows, and
      none at all when there are more threads than rows. */
  lemma ShareBound(rows: nat, t: int)
    requires t >= 1
    ensures 0 <= (t - 1) * (rows / t) <= t * (rows / t) <= rows
    ensures t > rows ==> rows / t == 0
  {
    var per := rows / t;
    assert per >= 0;
    assert t * per + rows % t == rows;
    Layout.MulMonotone(per, t - 1, t);
    assert (t - 1) * per == per * (t - 1) && t * per == per * t;
  }

  /** The ranges start at 0, end at `rows`, follow one another without gap
      or overlap, and are never negative in length; when there are more
      threads than rows all but the last are empty. */
  lemma RangesContiguous(rows: nat, numThreads: int)
    requires numThreads >= 1
    ensures var r := ThreadRanges(rows, numThreads);
            && r[0].0 == 0
            && r[|r| - 1].1 == rows
            && (forall i :: 0 <= i < |r| ==> 0 <= r[i].0 <= r[i].1 <= rows)
            && (forall i :: 0 <= i < |r| - 1 ==> r[i].1 == r[i + 1].0)
            && (ThreadCount(numThreads) > rows ==> forall i :: 0 <= i < |r| - 1 ==> r[i].0 == r[i].1 == 0)
  {
    var t := ThreadCount(numThreads);
    var per := rows / t;
    var r := ThreadRanges(rows, numThreads);
    ShareBound(rows, t);
    forall i | 0 <= i < t
      ensures 0 <= r[i].0 <= r[i].1 <= rows
    {
      RangeBounds(rows, t, per, i);
    }
    if t > rows {
      forall i | 0 <= i < t - 1
        ensures r[i].0 == r[i].1 == 0
      {
        assert per == 0;
      }
    }
  }

  lemma RangeBounds(rows: nat, t: int, per: int, i: int)
    requires t >= 1 && 0 <= i < t && per >= 0 && (t - 1) * per <= rows
    ensures 0 <= i * per <= (if i == t - 1 then rows else (i + 1) * per) <= rows
  {
    Layout.MulMonotone(per, i, t - 1);
    assert i * per == per * i && (t - 1) * per == per * (t - 1);
    if i < t - 1 {
      Layout.MulMonotone(per, i + 1, t - 1);
      assert (i + 1) * per == per * (i + 1);
    }
  }

  /** Earlier ranges end before later ones start. */
  lemma RangesDisjoint(rows: nat, numThreads: int, i: int, j: int)
    requires numThreads >= 1
    requires 0 <= i < j < ThreadCount(numThreads)
    ensures ThreadRanges(rows, numThreads)[i].1 <= ThreadRanges(rows, numThreads)[j].0
  {
    var per := rows / ThreadCount(numThreads);
    Layout.MulMonotone(per, i + 1, j);
    assert (i + 1) * per == per * (i + 1) && j * per == per * j;
  }

  /** Every row in `[0, rows)` lies in exactly one range. */
  lemma RangesCover(rows: nat, numThreads: int, x: int)
    requires numThreads >= 1 && 0 <= x < rows
    ensures var r := ThreadRanges(rows, numThreads);
            exists i :: 0 <= i < |r| && r[i].0 <= x < r[i].1
    ensures var r := ThreadRanges(rows, numThreads);
            forall i, j :: 0 <= i < |r| && 0 <= j < |r| && r[i].0 <= x < r[i].1 && r[j].0 <= x < r[j].1 ==> i == j
  {
    var r := ThreadRanges(rows, numThreads);
    var t := ThreadCount(numThreads);
    RangesContiguous(rows, numThreads);
    var k := 0;
    while k < t - 1 && r[k].1 <= x
      invariant 0 <= k < t && r[k].0 <= x
    {
      k := k + 1;
    }
    assert r[k].0 <= x < r[k].1;
    forall i, j | 0 <= i < |r| && 0 <= j < |r| && r[i].0 <= x < r[i].1 && r[j].0 <= x < r[j].1
      ensures i == j
    {
      if i < j {
        RangesDisjoint(rows, numThreads, i, j);
      } else if j < i {
        RangesDisjoint(rows, numThreads, j, i);
      }
    }
  }

  /** `eliminate_multi_thread` with the threads run one after another over
      their ranges; the result is `eliminate_single_thread`'s whatever the
      thread count. */
  method EliminateMultiThread(m: Matrix.Mat, cols: nat, p: nat, numThreads: int, skip: bool)
    returns (e: Matrix.Mat)
    requires Layout.Uniform(m, cols) && p < |m| && p < cols && numThreads >= 1
    ensures e == Matrix.Eliminated(m, cols, p, 0, |m|, skip)
  {
    var ranges := Partition(|m|, numThreads);
    RangesContiguous(|m|, numThreads);
    e := m;
    var i := 0;
    while i < |ranges|
      invariant 0 <= i <= |ranges|
      invariant e == Matrix.Eliminated(m, cols, p, 0, if i == 0 then 0 else ranges[i - 1].1, skip)
    {
      var (start, end) := ranges[i];
      assert 0 <= start <= end <= |m|;
      Matrix.EliminatedSplit(m, cols, p, 0, start, end, skip);
      e := Matrix.RowsOp(e, cols, p, start, end, skip);
      i := i + 1;
    }
  }
}

=== FILE: solver_frontend.dfy ===
/** `LinearEquationSolver.solve` and `MainApp._result_string` of
    linear_equation_solver.py: the ctypes call into the native solver, the
    mapping of its status code to a result or an error, and the text of a
    unique solution. */
module SolverFrontEnd {
  import opened Wrappers
  import Text
  import Layout
  import SystemAssembler

  /** What `solve` reports instead of a solved matrix. */
  datatype SolveError =
    | NoSolutions          // status 0: "System has no solutions."
    | InfiniteSolutions    // status 2: "System has infinite solutions."
    | UnknownError         // any other status: "Unknown error."
    | NoRows               // `matrix_data[0]` of an empty matrix (IndexError)
    | TooManyInitializers  // more entries than `sizeX * sizeY` (ctypes IndexError)
    | ZeroStep             // `range(0, n, 0)` when de-flattening width-0 rows (ValueError)

  /** The native `solve_linear_system(matrix, rows, cols)` as ctypes sees
      it: the status it returns and the buffer contents after the call. */
  type Backend = (seq<real>, int, int) -> (int, seq<real>)

  /** `(c_double * n)(*data)`: the data, then zeros up to `n` entries. */
  function Buffer(data: seq<real>, n: nat): (b: seq<real>)
    requires |data| <= n
    ensures |b| == n
    ensures b[..|data|] == data
    ensures forall i :: |data| <= i < n ==> b[i] == 0.0
  {
    data + seq(n - |data|, _ => 0.0)
  }

  /** `LinearEquationSolver.solve`. */
  function Solve(matrix: seq<seq<real>>, backend: Backend): (r: Result<seq<seq<real>>, SolveError>)
    ensures |matrix| == 0 ==> r == Failure(NoRows)
    ensures |matrix| > 0 && |Layout.Flatten(matrix)| > |matrix[0]| * |matrix| ==> r == Failure(TooManyInitializers)
    ensures r.Success? ==>
              var flat := Layout.Flatten(matrix);
              var (status, out) := backend(Buffer(flat, |matrix[0]| * |matrix|), |matrix|, |matrix[0]|);
              && status == 1 && |matrix[0]| >= 1
              && r.value == Layout.Deflatten(out, |matrix[0]|)
    ensures |matrix| > 0 && |Layout.Flatten(matrix)| <= |matrix[0]| * |matrix| ==>
              var status := backend(Buffer(Layout.Flatten(matrix), |matrix[0]| * |matrix|), |matrix|, |matrix[0]|).0;
              && (status == 0 <==> r == Failure(NoSolutions))
              && (status == 2 <==> r == Failure(InfiniteSolutions))
              && (status !in {0, 1, 2} <==> r == Failure(UnknownError))
              && (status == 1 <==> r.Success? || r == Failure(ZeroStep))
  {
    if |matrix| == 0 then Failure(NoRows)
    else
      var sizeY := |matrix|;
      var sizeX := |matrix[0]|;
      var flat := Layout.Flatten(matrix);
      if |flat| > sizeX * sizeY then Failure(TooManyInitializers)
      else
        var (status, out) := backend(Buffer(flat, sizeX * sizeY), sizeY, sizeX);
        if status == 0 then Failure(NoSolutions)
        else if status == 1 then
          if sizeX == 0 then Failure(ZeroStep) else Success(Layout.Deflatten(out, sizeX))
        else if status == 2 then Failure(InfiniteSolutions)
        else Failure(UnknownError)
  }

  /** For a rectangular matrix of width at least one, a backend that keeps
      the buffer length and reports a unique solution hands back a matrix of
      the original shape; one that also leaves the buffer untouched hands back
      the matrix itself. */
  lemma SolvePreservesShape(matrix: seq<seq<real>>, w: int, backend: Backend)
    requires |matrix| > 0 && w >= 1 && Layout.Uniform(matrix, w)
    requires var call := backend(Layout.Flatten(matrix), |matrix|, w);
             call.0 == 1 && |call.1| == |matrix| * w
    ensures Solve(matrix, backend).Success?
    ensures |Solve(matrix, backend).value| == |matrix|
    ensures Layout.Uniform(Solve(matrix, backend).value, w)
    ensures backend(Layout.Flatten(matrix), |matrix|, w).1 == Layout.Flatten(matrix) ==>
              Solve(matrix, backend).value == matrix
  {
    var flat := Layout.Flatten(matrix);
    Layout.FlattenLength(matrix, w);
    assert Buffer(flat, w * |matrix|) == flat;
    var out := backend(flat, |matrix|, w).1;
    Layout.DeflattenShape(out, w, |matrix|);
    if out == flat {
      Layout.DeflattenFlatten(matrix, w);
    }
  }

  /** The right-hand side of row `row`: `result[row][-1]`. */
  function LastEntry(result: seq<seq<real>>, row: nat): real
    requires row < |result| && |result[row]| > 0
  {
    result[row][|result[row]| - 1]
  }

  /** Variable `i`'s row exists and is non-empty, so that
      `result[variables.index(var)][-1]` can be read. */
  predicate RowReadable(result: seq<seq<real>>, vs: seq<string>, i: nat)
    requires i < |vs|
  {
    SystemAssembler.IndexOf(vs, vs[i]) < |result| && |result[SystemAssembler.IndexOf(vs, vs[i])]| > 0
  }

  /** Every variable's row can be read. */
  predicate Readable(result: seq<seq<real>>, vs: seq<string>)
  {
    forall i :: 0 <= i < |vs| ==> RowReadable(result, vs, i)
  }

  /** The first variable from position `i` on whose row cannot be read, or
      `|vs|` when there is none. */
  function FirstUnreadable(result: seq<seq<real>>, vs: seq<string>, i: nat): (j: nat)
    requires i <= |vs|
    ensures i <= j <= |vs|
    ensures forall k :: i <= k < j ==> RowReadable(result, vs, k)
    ensures j < |vs| ==> !RowReadable(result, vs, j)
    decreases |vs| - i
  {
    if i == |vs| || !RowReadable(result, vs, i) then i else FirstUnreadable(result, vs, i + 1)
  }

  /** The `IndexError` that `result[variables.index(var)][-1]` raises for
      the variable whose row is missing or empty. */
  datatype ReadError = RowMissing(variable: string)

  /** The lines of `_result_string`, one per variable in list order;
      `show` stands for Python's float formatting. */
  function ResultLines(result: seq<seq<real>>, vs: seq<string>, show: real -> string): (lines: seq<string>)
    requires Readable(result, vs)
    ensures |lines| == |vs|
  {
    seq(|vs|, i requires 0 <= i < |vs| =>
      assert RowReadable(result, vs, i);
      vs[i] + " = " + show(LastEntry(result, SystemAssembler.IndexOf(vs, vs[i]))) + "\n")
  }

  /** `_result_string`: the lines concatenated when every row can be read;
      otherwise the loop stops with an `IndexError` at the first variable
      whose row is missing or empty. */
  function ResultString(result: seq<seq<real>>, vs: seq<string>, show: real -> string): (r: Result<string, ReadError>)
    ensures r.Success? <==> Readable(result, vs)
    ensures r.Failure? ==>
              exists i :: 0 <= i < |vs| && r.error == RowMissing(vs[i]) && !RowReadable(result, vs, i)
                          && forall k :: 0 <= k < i ==> RowReadable(result, vs, k)
    ensures r.Success? ==> r.value == Text.Join(ResultLines(result, vs, show), "")
  {
    var j := FirstUnreadable(result, vs, 0);
    if j == |vs| then Success(Text.Join(ResultLines(result, vs, show), ""))
    else Failure(RowMissing(vs[j]))
  }

  /** With a duplicate-free (sorted) variable list, variable `i` is read
      from the last column of row `i`; at least one row per variable is
      enough for the read to succeed. */
  lemma ResultReadsRowPerVariable(result: seq<seq<real>>, vs: seq<string>, show: real -> string)
    requires Text.StrictlySorted(vs)
    requires |result| >= |vs| && forall i :: 0 <= i < |result| ==> |result[i]| > 0
    ensures Readable(result, vs) && ResultString(result, vs, show).Success?
    ensures forall i :: 0 <= i < |vs| ==>
              ResultLines(result, vs, show)[i] == vs[i] + " = " + show(LastEntry(result, i)) + "\n"
  {
    forall i | 0 <= i < |vs| ensures SystemAssembler.IndexOf(vs, vs[i]) == i {
      SystemAssembler.IndexOfDistinct(vs, i);
    }
  }

  /** A solved matrix with fewer rows than variables makes the read of
      the first variable without a row raise. */
  lemma MissingRowRaises(row: seq<real>, u: string, v: string, show: real -> string)
    requires |row| > 0 && Text.Less(u, v)
    ensures ResultString([row], [u, v], show) == Failure(RowMissing(v))
  {
    assert SystemAssembler.IndexOf([u, v], u) == 0;
    assert SystemAssembler.IndexOf([u, v], v) == 1 by { Text.LessIrreflexive(u); }
    assert RowReadable([row], [u, v], 0) && !RowReadable([row], [u, v], 1);
  }
}

=== FILE: system_assembler.dfy ===
/** `equations_to_matrix` of linear_equation_solver.py: the sorted variable
    list and the augmented matrix, one row per equation, the constant moved
    to the right-hand side with its sign flipped. */
module SystemAssembler {
  import Text
  import Layout
  import opened EquationParser

  /** `{var for eq in equations for var in eq.keys() if var}`. */
  function VariableSet(eqs: seq<Equation>): set<string>
  {
    set i, k | 0 <= i < |eqs| && k in eqs[i] && k != "" :: k
  }

  /** `sorted(...)` of the variable set: strictly increasing, so without
      duplicates, never containing the constant key, and holding exactly the
      variables some equation mentions. */
  function Variables(eqs: seq<Equation>): (vs: seq<string>)
    ensures Text.StrictlySorted(vs)
    ensures "" !in vs
    ensures forall k :: k in vs <==> k in VariableSet(eqs)
    ensures forall i, k :: 0 <= i < |eqs| && k in eqs[i] && k != "" ==> k in vs
  {
    Text.SortSet(VariableSet(eqs))
  }

  /** Python `list.index`: the first position holding `k`. */
  function IndexOf(vs: seq<string>, k: string): (j: nat)
    requires k in vs
    ensures j < |vs| && vs[j] == k
    ensures forall i :: 0 <= i < j ==> vs[i] != k
  {
    if vs[0] == k then 0 else 1 + IndexOf(vs[1..], k)
  }

  /** In a list without duplicates, `index` of the `j`-th element is `j`. */
  lemma IndexOfDistinct(vs: seq<string>, j: int)
    requires Text.StrictlySorted(vs) && 0 <= j < |vs|
    ensures IndexOf(vs, vs[j]) == j
  {
    var i := IndexOf(vs, vs[j]);
    if i < j {
      Text.LessIrreflexive(vs[j]);
    }
  }

  /** One augmented row: coefficients in variable order, then `-constant`. */
  function Row(eq: Equation, vs: seq<string>): (row: seq<real>)
    ensures |row| == |vs| + 1
    ensures forall j :: 0 <= j < |vs| ==> row[j] == Get(eq, vs[j])
    ensures row[|vs|] == -Get(eq, "")
  {
    seq(|vs| + 1, j requires 0 <= j <= |vs| => if j < |vs| then Get(eq, vs[j]) else -Get(eq, ""))
  }

  /** `equations_to_matrix`: the matrix and the variable list it is laid out by. */
  function EquationsToMatrix(eqs: seq<Equation>): (r: (seq<seq<real>>, seq<string>))
    ensures r.1 == Variables(eqs)
    ensures |r.0| == |eqs| && Layout.Uniform(r.0, |r.1| + 1)
    ensures forall i :: 0 <= i < |eqs| ==> r.0[i] == Row(eqs[i], r.1)
  {
    var vs := Variables(eqs);
    var m := seq(|eqs|, i requires 0 <= i < |eqs| => Row(eqs[i], vs));
    (m, vs)
  }

  /** The assignment `row[variables.index(var)] = coef`: every variable of
      equation `i` lands in the column the variable list gives it. */
  lemma VariableColumn(eqs: seq<Equation>, i: int, k: string)
    requires 0 <= i < |eqs| && k in eqs[i] && k != ""
    ensures var (m, vs) := EquationsToMatrix(eqs);
            k in vs && m[i][IndexOf(vs, k)] == eqs[i][k]
  {
  }

  /** Reading a row back through the variable list recovers the equation:
      each variable's coefficient and the negated constant, and nothing else
      is non-zero. */
  lemma RowDeterminesEquation(eqs: seq<Equation>, i: int)
    requires 0 <= i < |eqs|
    ensures var (m, vs) := EquationsToMatrix(eqs);
            && (forall k :: k in eqs[i] && k != "" ==> m[i][IndexOf(vs, k)] == eqs[i][k])
            && (forall j :: 0 <= j < |vs| && vs[j] !in eqs[i] ==> m[i][j] == 0.0)
            && m[i][|vs|] == -Get(eqs[i], "")
  {
    var (m, vs) := EquationsToMatrix(eqs);
    forall k | k in eqs[i] && k != ""
      ensures m[i][IndexOf(vs, k)] == eqs[i][k]
    {
      VariableColumn(eqs, i, k);
    }
  }

  /** The variable list depends only on which equations there are, not on
      their order. */
  lemma VariablesOrderIndependent(a: seq<Equation>, b: seq<Equation>)
    requires multiset(a) == multiset(b)
    ensures Variables(a) == Variables(b)
  {
    forall k ensures k in VariableSet(a) <==> k in VariableSet(b) {
      if k in VariableSet(a) {
        var i :| 0 <= i < |a| && k in a[i] && k != "";
        assert a[i] in multiset(b);
        var j :| 0 <= j < |b| && b[j] == a[i];
      }
      if k in VariableSet(b) {
        var i :| 0 <= i < |b| && k in b[i] && k != "";
        assert b[i] in multiset(a);
        var j :| 0 <= j < |a| && a[j] == b[i];
      }
    }
    assert VariableSet(a) == VariableSet(b);
  }

  /** The variable list is the only strictly increasing listing of the
      variable set. */
  lemma VariablesCanonical(eqs: seq<Equation>, vs: seq<string>)
    requires Text.StrictlySorted(vs)
    requires forall k :: k in vs <==> k in VariableSet(eqs)
    ensures vs == Variables(eqs)
  {
    Text.StrictlySortedUnique(vs, Variables(eqs));
  }
}

=== FILE: text.dfy ===
/** String helpers with Python semantics: `str.split(sep)`, `sep.join(parts)`,
    `str.replace(old, new)`, `str.count(c)`, `str.strip()` emptiness, and
    the code-point lexicographic order that `sorted` uses on strings. */
module Text {

  /** Number of occurrences of `c` in `s` (Python `s.count(c)` for one character). */
  function Count(s: string, c: char): (n: nat)
    ensures n <= |s|
    ensures n == 0 <==> c !in s
  {
    if |s| == 0 then 0
    else (if s[0] == c then 1 else 0) + Count(s[1..], c)
  }

  lemma {:induction false} CountAppend(a: string, b: string, c: char)
    ensures Count(a + b, c) == Count(a, c) + Count(b, c)
  {
    if |a| == 0 {
      assert a + b == b;
    } else {
      assert (a + b)[1..] == a[1..] + b;
      CountAppend(a[1..], b, c);
    }
  }

  /** `sep.join(parts)`. */
  function Join(parts: seq<string>, sep: string): string
  {
    if |parts| == 0 then ""
    else if |parts| == 1 then parts[0]
    else parts[0] + sep + Join(parts[1..], sep)
  }

  /** `s.split(sep)` for a one-character separator: always at least one
      fragment, no fragment contains the separator, and joining the
      fragments back with the separator gives `s` again. */
  function Split(s: string, sep: char): (r: seq<string>)
    ensures |r| == Count(s, sep) + 1
    ensures forall i :: 0 <= i < |r| ==> sep !in r[i]
    ensures Join(r, [sep]) == s
    decreases |s|
  {
    if |s| == 0 then [""]
    else
      var rest := Split(s[1..], sep);
      assert s == [s[0]] + s[1..];
      if s[0] == sep then
        JoinCons("", rest, [sep]);
        [""] + rest
      else
        JoinExtendFirst(s[0], rest, [sep]);
        [[s[0]] + rest[0]] + rest[1..]
  }

  /** Joining after a new first fragment puts it and one separator in front. */
  lemma JoinCons(a: string, parts: seq<string>, sep: string)
    requires |parts| >= 1
    ensures Join([a] + parts, sep) == a + sep + Join(parts, sep)
  {
    assert ([a] + parts)[1..] == parts;
  }

  /** Extending the first fragment extends the joined text in front. */
  lemma JoinExtendFirst(c: char, parts: seq<string>, sep: string)
    requires |parts| >= 1
    ensures Join([[c] + parts[0]] + parts[1..], sep) == [c] + Join(parts, sep)
  {
    var r := [[c] + parts[0]] + parts[1..];
    if |parts| > 1 {
      assert r[1..] == parts[1..];
      assert [c] + parts[0] + sep + Join(parts[1..], sep) == [c] + (parts[0] + sep + Join(parts[1..], sep));
    }
  }

  /** Splitting a joined list of separator-free fragments recovers the fragments. */
  lemma {:induction false} SplitJoin(parts: seq<string>, sep: char)
    requires |parts| >= 1
    requires forall i :: 0 <= i < |parts| ==> sep !in parts[i]
    ensures Split(Join(parts, [sep]), sep) == parts
    decreases |parts|
  {
    if |parts| == 1 {
      SplitNoSep(parts[0], sep);
    } else {
      var tail := Join(parts[1..], [sep]);
      assert Join(parts, [sep]) == parts[0] + [sep] + tail;
      SplitPrefix(parts[0], tail, sep);
      SplitJoin(parts[1..], sep);
      assert parts == [parts[0]] + parts[1..];
    }
  }

  lemma {:induction false} SplitPrefix(p: string, t: string, sep: char)
    requires sep !in p
    ensures Split(p + [sep] + t, sep) == [p] + Split(t, sep)
    decreases |p|
  {
    if |p| == 0 {
      assert (p + [sep] + t)[1..] == t;
    } else {
      var u := p[1..] + [sep] + t;
      assert p + [sep] + t == [p[0]] + u;
      assert sep !in p[1..] by {
        assert forall k :: 0 <= k < |p[1..]| ==> p[1..][k] == p[k + 1];
      }
      SplitPrefix(p[1..], t, sep);
      SplitCons(p[0], u, sep);
      assert [p[0]] + p[1..] == p;
    }
  }

  /** A leading non-separator joins the first fragment of the rest. */
  lemma SplitCons(c: char, u: string, sep: char)
    requires c != sep
    ensures Split([c] + u, sep) == [[c] + Split(u, sep)[0]] + Split(u, sep)[1..]
  {
    assert ([c] + u)[1..] == u;
  }

  lemma {:induction false} SplitNoSep(s: string, sep: char)
    requires sep !in s
    ensures Split(s, sep) == [s]
    decreases |s|
  {
    if |s| > 0 {
      assert sep !in s[1..] by {
        assert forall k :: 0 <= k < |s[1..]| ==> s[1..][k] == s[k + 1];
      }
      SplitNoSep(s[1..], sep);
      assert [s[0]] + s[1..] == s;
    }
  }

  /** `s.replace(pat, rep)`: leftmost, non-overlapping occurrences are replaced. */
  function Replace(s: string, pat: string, rep: string): string
    requires |pat| > 0
    decreases |s|
  {
    if |s| == 0 then ""
    else if |pat| <= |s| && s[..|pat|] == pat then rep + Replace(s[|pat|..], pat, rep)
    else [s[0]] + Replace(s[1..], pat, rep)
  }

  /** Deleting one character is compositional: it distributes over concatenation. */
  lemma {:induction false} RemoveCharAppend(a: string, b: string, c: char)
    ensures Replace(a + b, [c], "") == Replace(a, [c], "") + Replace(b, [c], "")
    decreases |a|
  {
    if |a| == 0 {
      assert a + b == b;
    } else {
      assert (a + b)[..1] == a[..1];
      assert (a + b)[1..] == a[1..] + b;
      RemoveCharAppend(a[1..], b, c);
    }
  }

  /** After deleting every `c`, no `c` remains. */
  lemma {:induction false} RemoveCharGone(s: string, c: char)
    ensures c !in Replace(s, [c], "")
    decreases |s|
  {
    if |s| > 0 {
      RemoveCharGone(s[1..], c);
    }
  }

  /** Deleting one character keeps the number of every other character. */
  lemma {:induction false} RemoveCharCount(s: string, c: char, x: char)
    requires x != c
    ensures Count(Replace(s, [c], ""), x) == Count(s, x)
    decreases |s|
  {
    if |s| > 0 {
      var rest := Replace(s[1..], [c], "");
      RemoveCharCount(s[1..], c, x);
      if s[..1] == [c] {
        assert Replace(s, [c], "") == rest;
        assert s[0] == c;
      } else {
        var r := [s[0]] + rest;
        assert Replace(s, [c], "") == r;
        assert r[0] == s[0] && r[1..] == rest;
      }
    }
  }

  /** Past the first position, every `c` of `s` directly follows a `p`. */
  predicate Follows(s: string, c: char, p: char)
  {
    forall i :: 1 <= i < |s| && s[i] == c ==> s[i - 1] == p
  }

  /** After putting `p` in front of every `c` (with `p` not `c`), each `c`
      of the result directly follows a `p`, and none stands first. */
  lemma {:induction false} PrefixedEverywhere(s: string, c: char, p: char)
    requires p != c
    ensures Follows(Replace(s, [c], [p, c]), c, p)
    ensures |Replace(s, [c], [p, c])| > 0 ==> Replace(s, [c], [p, c])[0] != c
    decreases |s|
  {
    if |s| > 0 {
      var rest := Replace(s[1..], [c], [p, c]);
      PrefixedEverywhere(s[1..], c, p);
      if s[..1] == [c] {
        var r := [p, c] + rest;
        assert Replace(s, [c], [p, c]) == r;
        forall i | 1 <= i < |r| && r[i] == c
          ensures r[i - 1] == p
        {
          if i >= 2 {
            assert r[i] == rest[i - 2] && r[i - 1] == (if i == 2 then c else rest[i - 3]);
          }
        }
      } else {
        var r := [s[0]] + rest;
        assert Replace(s, [c], [p, c]) == r;
        assert s[0] != c by { assert s[..1] == [s[0]]; }
        assert forall i :: 1 <= i < |r| ==> r[i] == rest[i - 1];
      }
    }
  }

  /** A character that, past the first position, only ever follows the
      separator can stand only at the start of a fragment. */
  lemma {:induction false} SplitFollowers(s: string, sep: char, c: char)
    requires c != sep && Follows(s, c, sep)
    ensures forall k, j :: 0 <= k < |Split(s, sep)| && 0 < j < |Split(s, sep)[k]| ==> Split(s, sep)[k][j] != c
    decreases |s|
  {
    if |s| > 0 {
      var t := s[1..];
      var rest := Split(t, sep);
      assert Follows(t, c, sep) by {
        assert forall i :: 0 <= i < |t| ==> t[i] == s[i + 1];
      }
      SplitFollowers(t, sep, c);
      var parts := Split(s, sep);
      forall k, j | 0 <= k < |parts| && 0 < j < |parts[k]|
        ensures parts[k][j] != c
      {
        if s[0] == sep {
          assert parts == [""] + rest;
          assert parts[k] == rest[k - 1];
        } else {
          var f := [s[0]] + rest[0];
          assert parts == [f] + rest[1..];
          if k > 0 {
            assert parts[k] == rest[k];
          } else if j > 1 {
            assert parts[k][j] == rest[0][j - 1];
          } else {
            SplitStart(t, sep);
            assert parts[k][j] == s[1];
          }
        }
      }
    }
  }

  /** The first fragment starts with the first character, unless that is
      the separator. */
  lemma SplitStart(s: string, sep: char)
    requires |s| > 0 && s[0] != sep
    ensures |Split(s, sep)[0]| > 0 && Split(s, sep)[0][0] == s[0]
  {
  }

  /** Replacing a pattern whose first character does not occur changes nothing. */
  lemma {:induction false} ReplaceAbsent(s: string, pat: string, rep: string)
    requires |pat| > 0 && pat[0] !in s
    ensures Replace(s, pat, rep) == s
    decreases |s|
  {
    if |s| > 0 {
      assert pat[0] !in s[1..] by {
        assert forall k :: 0 <= k < |s[1..]| ==> s[1..][k] == s[k + 1];
      }
      ReplaceAbsent(s[1..], pat, rep);
      assert [s[0]] + s[1..] == s;
    }
  }

  /** Deleting a character introduces no new characters. */
  lemma {:induction false} RemoveCharSubset(s: string, c: char, x: char)
    requires x in Replace(s, [c], "")
    ensures x in s
    decreases |s|
  {
    if |s| > 0 {
      if s[0] == c || x != s[0] {
        assert x in Replace(s[1..], [c], "");
        RemoveCharSubset(s[1..], c, x);
      }
    }
  }

  /** Every character of a fragment of `Split(s, sep)` occurs in `s`. */
  lemma {:induction false} SplitChars(s: string, sep: char, i: int, x: char)
    requires 0 <= i < |Split(s, sep)| && x in Split(s, sep)[i]
    ensures x in s
    decreases |s|
  {
    if |s| > 0 {
      var rest := Split(s[1..], sep);
      if s[0] == sep {
        SplitChars(s[1..], sep, i - 1, x);
      } else if i == 0 {
        if x != s[0] {
          SplitChars(s[1..], sep, 0, x);
        }
      } else {
        SplitChars(s[1..], sep, i, x);
      }
    }
  }

  /** Whitespace as Python's `str.strip()` removes it (the ASCII members). */
  predicate IsSpace(c: char)
  {
    c == ' ' || 9 <= c as int <= 13 || 28 <= c as int <= 31
  }

  /** `s.strip()` is empty exactly when every character is whitespace. */
  predicate IsBlank(s: string)
  {
    forall i :: 0 <= i < |s| ==> IsSpace(s[i])
  }

  /** Python's string `<`: code-point lexicographic order, a proper prefix first. */
  predicate Less(a: string, b: string)
    decreases |a|
  {
    if |a| == 0 then |b| > 0
    else if |b| == 0 then false
    else a[0] < b[0] || (a[0] == b[0] && Less(a[1..], b[1..]))
  }

  predicate LessEq(a: string, b: string)
  {
    a == b || Less(a, b)
  }

  lemma {:induction false} LessIrreflexive(a: string)
    ensures !Less(a, a)
    decreases |a|
  {
    if |a| > 0 {
      LessIrreflexive(a[1..]);
    }
  }

  lemma {:induction false} LessTransitive(a: string, b: string, c: string)
    requires Less(a, b) && Less(b, c)
    ensures Less(a, c)
    decreases |a|
  {
    if |a| > 0 {
      if a[0] == b[0] && b[0] == c[0] {
        LessTransitive(a[1..], b[1..], c[1..]);
      }
    }
  }

  lemma {:induction false} LessTotal(a: string, b: string)
    ensures a == b || Less(a, b) || Less(b, a)
    decreases |a|
  {
    if |a| > 0 && |b| > 0 && a[0] == b[0] {
      LessTotal(a[1..], b[1..]);
      if a[1..] == b[1..] {
        assert a == [a[0]] + a[1..] && b == [b[0]] + b[1..];
      }
    }
  }

  lemma LessAsymmetric(a: string, b: string)
    ensures !(Less(a, b) && Less(b, a))
  {
    if Less(a, b) && Less(b, a) {
      LessTransitive(a, b, a);
      LessIrreflexive(a);
    }
  }

  predicate StrictlySorted(s: seq<string>)
  {
    forall i, j :: 0 <= i < j < |s| ==> Less(s[i], s[j])
  }

  predicate Sorted(s: seq<string>)
  {
    forall i, j :: 0 <= i < j < |s| ==> LessEq(s[i], s[j])
  }

  predicate IsMinimum(m: string, s: set<string>)
  {
    m in s && forall y :: y in s && y != m ==> Less(m, y)
  }

  lemma {:induction false} MinimumExists(s: set<string>)
    requires s != {}
    ensures exists m :: IsMinimum(m, s)
    decreases |s|
  {
    var x :| x in s;
    var rest := s - {x};
    if rest == {} {
      assert s == {x};
      assert IsMinimum(x, s);
    } else {
      MinimumExists(rest);
      var m :| IsMinimum(m, rest);
      assert m != x;
      LessTotal(m, x);
      if Less(m, x) {
        assert IsMinimum(m, s);
      } else {
        assert Less(x, m);
        forall y | y in s && y != x
          ensures Less(x, y)
        {
          if y != m {
            LessTransitive(x, m, y);
          }
        }
        assert IsMinimum(x, s);
      }
    }
  }

  lemma MinimumUnique(s: set<string>)
    ensures forall m, m' :: IsMinimum(m, s) && IsMinimum(m', s) ==> m == m'
  {
    forall m, m' | IsMinimum(m, s) && IsMinimum(m', s)
      ensures m == m'
    {
      LessAsymmetric(m, m');
    }
  }

  /** `sorted(s)` of a set of strings: the unique strictly increasing
      listing of exactly its elements. */
  function SortSet(s: set<string>): (r: seq<string>)
    ensures |r| == |s|
    ensures forall x :: x in r <==> x in s
    ensures StrictlySorted(r)
    decreases |s|
  {
    if s == {} then []
    else
      MinimumExists(s);
      MinimumUnique(s);
      var m :| IsMinimum(m, s);
      var tail := SortSet(s - {m});
      assert forall j :: 0 <= j < |tail| ==> Less(m, tail[j]) by {
        forall j | 0 <= j < |tail| ensures Less(m, tail[j]) {
          assert tail[j] in tail;
        }
      }
      ConsStrictlySorted(m, tail);
      [m] + tail
  }

  lemma ConsStrictlySorted(m: string, tail: seq<string>)
    requires StrictlySorted(tail)
    requires forall j :: 0 <= j < |tail| ==> Less(m, tail[j])
    ensures StrictlySorted([m] + tail)
  {
    var r := [m] + tail;
    forall i, j | 0 <= i < j < |r| ensures Less(r[i], r[j]) {
      assert r[j] == tail[j - 1];
      if i > 0 {
        assert r[i] == tail[i - 1];
      }
    }
  }

  lemma ConsSorted(m: string, tail: seq<string>)
    requires Sorted(tail)
    requires forall j :: 0 <= j < |tail| ==> LessEq(m, tail[j])
    ensures Sorted([m] + tail)
  {
    var r := [m] + tail;
    forall i, j | 0 <= i < j < |r| ensures LessEq(r[i], r[j]) {
      assert r[j] == tail[j - 1];
      if i > 0 {
        assert r[i] == tail[i - 1];
      }
    }
  }

  /** A strictly sorted list is determined by its set of elements. */
  lemma {:induction false} StrictlySortedUnique(a: seq<string>, b: seq<string>)
    requires StrictlySorted(a) && StrictlySorted(b)
    requires forall x :: x in a <==> x in b
    ensures a == b
    decreases |a|
  {
    assert |b| > 0 ==> b[0] in a;
    assert |a| > 0 ==> a[0] in b;
    if |a| > 0 {
      assert |b| > 0 by { assert a[0] in a; }
      if a[0] != b[0] {
        assert a[0] in b;
        assert b[0] in a;
        var i :| 0 <= i < |b| && b[i] == a[0];
        var j :| 0 <= j < |a| && a[j] == b[0];
        assert Less(b[0], a[0]) by { assert i != 0; }
        assert Less(a[0], b[0]) by { assert j != 0; }
        LessAsymmetric(a[0], b[0]);
      } else {
        forall x ensures x in a[1..] <==> x in b[1..] {
          if x in a[1..] {
            var i :| 0 <= i < |a[1..]| && a[1..][i] == x;
            assert a[i + 1] == x;
            LessIrreflexive(a[0]);
            assert x != b[0];
            assert x in b;
            var k :| 0 <= k < |b| && b[k] == x;
            assert k != 0;
            assert b[1..][k - 1] == x;
          }
          if x in b[1..] {
            var i :| 0 <= i < |b[1..]| && b[1..][i] == x;
            assert b[i + 1] == x;
            LessIrreflexive(b[0]);
            assert x != a[0];
            assert x in a;
            var k :| 0 <= k < |a| && a[k] == x;
            assert k != 0;
            assert a[1..][k - 1] == x;
          }
        }
        StrictlySortedUnique(a[1..], b[1..]);
        assert a == [a[0]] + a[1..] && b == [b[0]] + b[1..];
      }
    }
  }

  /** Inserting into a sorted list keeps it sorted and adds exactly one copy. */
  function Insert(x: string, s: seq<string>): (r: seq<string>)
    requires Sorted(s)
    ensures Sorted(r)
    ensures multiset(r) == multiset(s) + multiset{x}
  {
    if |s| == 0 then [x]
    else if LessEq(x, s[0]) then
      assert forall j :: 0 <= j < |s| ==> LessEq(x, s[j]) by {
        forall j | 0 <= j < |s| ensures LessEq(x, s[j]) {
          if j > 0 && x != s[0] && s[0] != s[j] { LessTransitive(x, s[0], s[j]); }
        }
      }
      ConsSorted(x, s);
      [x] + s
    else
      var tail := Insert(x, s[1..]);
      LessTotal(x, s[0]);
      assert forall j :: 0 <= j < |tail| ==> LessEq(s[0], tail[j]) by {
        forall j | 0 <= j < |tail| ensures LessEq(s[0], tail[j]) {
          assert tail[j] in multiset(tail);
          assert tail[j] in multiset(s[1..]) || tail[j] == x;
          if tail[j] != x {
            var k :| 0 <= k < |s[1..]| && s[1..][k] == tail[j];
            assert s[k + 1] == tail[j];
          }
        }
      }
      assert s == [s[0]] + s[1..];
      ConsSorted(s[0], tail);
      [s[0]] + tail
  }

  /** Python `sorted(list)` on strings (a stable sort; equal strings are identical). */
  function Sort(s: seq<string>): (r: seq<string>)
    ensures Sorted(r)
    ensures multiset(r) == multiset(s)
  {
    if |s| == 0 then []
    else
      assert s == [s[0]] + s[1..];
      Insert(s[0], Sort(s[1..]))
  }
}

=== FILE: wrappers.dfy ===
/** Failure-compatible result type used for the error paths of the parser
    and of the solver front end (Python raises, the model returns Failure). */
module Wrappers {

  datatype Option<+T> = None | Some(value: T)

  datatype Result<+R, +E> = Success(value: R) | Failure(error: E) {

    predicate IsFailure() {
      Failure?
    }

    function PropagateFailure<U>(): Result<U, E>
      requires Failure?
    {
      Failure(error)
    }

    function Extract(): R
      requires Success?
    {
      value
    }
  }
}
